=== FILE: README.md ===
# LR(0) parse-table generator: a Dafny model

This project models the LR(0) table generator of `index.ts`: grammars with
duplicate rejection, LR(0) items and item sets, the generic automaton with
similarity-based state lookup, `goto`, `clousre` (closure), the worklist
construction `init`, and the table `table` fills through `TableLR.add_cmd`.
It then proves what each of these promises.

The modules follow the source's classes. `Collections`, `CompleteAutomaton` and
`LostStates` are the exceptions: they are proof-only modules, not classes of
`index.ts`.

- `Collections`: duplicate-free lists, the set of a list's elements and the
  cardinality facts behind the termination bound.
- `Tokens`: `Token`, a kind (`TERMINAL` or `NON_TERMINAL`) and a name.
- `Grammars`: `Gramer.add_rule` and `concat_rules`.
- `Items`: `ItemSet.exsist`, `add_item`, `concat` and `is_similar`.
- `Dfas`: `DFA.index_state`, `add_state` and `connect`.
- `Lr`: `goto` and `clousre`.
- `LrAutomaton`: `init` as written, with the push test `next_index > current`.
  It is written as recursive functions whose termination measure is a bound on
  the number of distinct states.
- `CompleteAutomaton`: the corrected construction, which visits every state it
  creates (see Findings).
- `LostStates`: what the push test as written loses.
- `Tables`: `TableLR`, its constructor and `add_cmd`.
- `LrTable`: `table`, written as loops with invariants.

An item set is a list that keeps insertion order, as in the source. Two sets
are the same state when `is_similar` holds, which for duplicate-free lists
means they hold the same items. A table cell is the list of actions appended
to it. The source's empty, single and array cell values are that list with
0, 1 or more elements. A cell with two or more actions is a visible conflict.

## Model

| member | source | states |
|---|---|---|
| Grammars.NewGrammar | index.ts:155-161 | A new grammar keeps the given variables and terminals and has no rules. |
| Grammars.SharesPosition | index.ts:169-173 | The position loop finds two tokens equal in kind and name iff such a position exists from `i` on. |
| Grammars.Refused | index.ts:164-174 | The rule loop returns early iff some rule has the same left-hand name, the same length and one position with an equal token. |
| Grammars.AddRule | index.ts:162-181 | Refused iff some existing rule blocks the new one. A refused call returns false and leaves the grammar unchanged. An accepted call returns true and appends exactly the new rule at the end. |
| Grammars.AddRuleRefusesCopy | index.ts:162-181 | Adding again any existing rule with a non-empty right-hand side is refused and changes nothing. |
| Grammars.AddRuleAcceptsEmpty | index.ts:162-181 | A rule with an empty right-hand side is always appended, even when it is already present. |
| Grammars.ConcatRules | index.ts:193-201 | Variables and terminals are unchanged. The rules appended are exactly `Accepted(g.rules, rs)`, in offer order: each offered rule that no rule already in the store, old or appended before it, blocks. The count is their number. |
| Grammars.AcceptedOffered | index.ts:193-201 | The rules `Accepted` keeps are taken from the offered list and are at most as many. |
| Grammars.AcceptedExplains | index.ts:163-201 | Every offered rule ends up in the final store, or some rule of the final store blocks it. |
| Grammars.ConcatRulesKeepsOrBlocks | index.ts:193-201 | The old rules stay a prefix. The count is at most the number of offered rules, and every appended rule is one of them. Every offered rule is in the resulting store or blocked by one of its rules. |
| Grammars.AddRuleExact | index.ts:162-181 | Corrected `add_rule`: it refuses exactly when the same rule is already present. It keeps a repetition-free rule list repetition-free. |
| Grammars.AddRuleRefusesDistinctRule | index.ts:169-173 | As written, `S -> a c` is refused after `S -> a b` although it is a different rule. `AddRuleExact` accepts it. |
| Grammars.AddRuleRepeatsEmptyRule | index.ts:167-178 | As written, a second `S -> ε` is accepted and the rule list then holds a repeated rule. `AddRuleExact` refuses it. |
| Items.Exists | index.ts:258-265 | True iff an item with the same rule number and dot position is in the list. |
| Items.AddItem | index.ts:266-272 | Reports growth iff the item was absent. A refused call leaves the list unchanged. Otherwise the item is appended at the end, the set of items gains exactly that item, and a duplicate-free list stays duplicate-free. |
| Items.Concat | index.ts:246-249 | `concat` is set union. The receiver stays a prefix and stays duplicate-free. |
| Items.ConcatCopies | index.ts:246-249 | Concatenating a list that shares no item with the receiver and has no repeats appends it verbatim. |
| Items.ContainsAll | index.ts:253-255 | The loop of `is_similar` holds iff every item of the argument is in the receiver. |
| Items.IsSimilar | index.ts:250-257 | Holds iff both lists have the same length and every item of the argument is in the receiver. |
| Items.SimilarIffSameItems | index.ts:250-257 | For duplicate-free lists, `is_similar` holds iff both hold the same set of items. |
| Items.SimilarSymmetric | index.ts:250-257 | For duplicate-free lists, `is_similar` is symmetric. |
| Items.SimilarIgnoresOrder | index.ts:250-257 | For duplicate-free lists, `is_similar` does not depend on the order of insertion. |
| Dfas.IndexFrom | index.ts:81-84 | Returns -1 iff no state from `i` on is similar to the argument. Otherwise it returns the first similar state from `i` on. |
| Dfas.IndexState | index.ts:79-85 | Returns -1 iff no state is similar to the argument. Otherwise it returns the index of the first similar state. |
| Dfas.AddState | index.ts:86-95 | If a similar state exists, the automaton is unchanged and the index of the first similar state is returned. Otherwise the state is appended and the old length is returned. Existing indices never shift and transitions are untouched. |
| Dfas.AddStateIndex | index.ts:79-95 | The index `add_state` returns is the one `index_state` finds for the same state in the automaton it returns. |
| Dfas.HasConnection | index.ts:111-116 | The scan finds the triple iff it is in the list. |
| Dfas.Connect | index.ts:109-120 | States are unchanged and the set of transitions gains exactly the triple. A present triple leaves the list unchanged, so no triple is recorded twice. |
| Lr.GotoAcc | index.ts:434-445 | The loop adds exactly the advanced items of the scanned list and keeps the result duplicate-free. |
| Lr.Goto | index.ts:431-447 | `goto(S, X)` holds exactly `(r, d+1)` for each `(r, d)` in `S` whose next symbol is named like `X`. It is duplicate-free and well formed, and every dot is past position 0. |
| Lr.GotoSameItems | index.ts:431-447 | `goto` depends only on the set of items of its argument, not on their order. |
| Lr.AddPredicted | index.ts:459-468 | The inner loop adds exactly `(i, 0)` for each rule from `i` on whose left-hand side is named like the wanted variable. |
| Lr.ClosureStep | index.ts:451-469 | One pass of the outer loop adds exactly the start items of the rules the `k`-th item demands. |
| Lr.ClosureFrom | index.ts:451-469 | The loop over the growing list, from position `k`, returns an extension that adds only start items, is duplicate-free and is closed. |
| Lr.Closure | index.ts:448-471 | `clousre(S)` contains `S`, is closed and duplicate-free, adds only start items, and keeps items well formed. |
| Lr.ClosureLeast | index.ts:448-471 | The closure lies inside every closed set that contains `S`, so it is the least one. |
| Lr.ClosureFromLeast | index.ts:451-469 | The loop never leaves a closed set that contains its starting list. |
| Lr.ClosureOfClosed | index.ts:448-471 | The closure of a closed duplicate-free list is that list itself. |
| Lr.ClosureFromClosed | index.ts:451-469 | The loop adds nothing to a list that is already closed. |
| Lr.ClosureIdempotent | index.ts:448-471 | `clousre(clousre(S)) == clousre(S)`, and so the two are similar. |
| Lr.ClosureSameItems | index.ts:448-471 | The closure's set of items depends only on the set of items of its argument. |
| LrAutomaton.InitialState | index.ts:401-406 | State 0, `clousre({(0, 0)})`, is a good state (duplicate-free, well formed, closed) holding `(0, 0)`. |
| LrAutomaton.ItemsBounded | index.ts:409-428 | A good state has at most as many items as the grammar has items. |
| LrAutomaton.StatesBounded | index.ts:409-428 | Pairwise distinct good states number at most 2 to the number of items, which bounds the loop. |
| LrAutomaton.AddStateKeepsStates | index.ts:86-95 | Adding a good state keeps the states good and pairwise distinct. The returned index holds the state's items. |
| LrAutomaton.ConnectKeepsGraph | index.ts:424 | Recording a justified transition keeps every transition justified and none repeated. |
| LrAutomaton.SuccessorGood | index.ts:420 | The closure of the successor of a good state is a good state. |
| LrAutomaton.FindRepresented | index.ts:412-414 | A set on the worklist is always found among the states: `current_index` is never -1 and holds that set's items. |
| LrAutomaton.Transition | index.ts:417-424 | For one item: the target holds the items of `clousre(goto(I, X))`, and its index is the one `index_state` finds for that set. At most one state is appended, and none when the target index is an old one. The transitions gain exactly that justified triple. |
| LrAutomaton.ScanOne | index.ts:415-426 | An item without a next symbol changes nothing. Otherwise one state at most is appended, and the transition for the next symbol is recorded from the scanned state only. The successor set `clousre(goto(I, X))` is pushed iff the index of its state is above `current`. Nothing else is ever pushed, and a pushed set is a state stored after `current`. |
| LrAutomaton.ScanOneSuccessor | index.ts:420-423 | What one item pushes is among the successors of `I`: `clousre(goto(I, X))` for the symbol `X` after the dot of an item of `I`. |
| LrAutomaton.TransitionToStored | index.ts:420-421 | A successor whose items an existing state already holds is found at that state: `add_state` returns its index and appends nothing. |
| LrAutomaton.PushTestRepushesOldState | index.ts:420-423 | As written, a successor already stored at an index above `current` appends no state and is pushed again, so the worklist runs ahead of the state list. |
| LrAutomaton.PushTestSkipsNewState | index.ts:421-423 | As written, a brand-new state whose index is not above `current` is appended but not pushed. |
| LrAutomaton.ScanItems | index.ts:415-426 | The item loop appends at most one state per item and gives every item with a next symbol a transition from the scanned state. It adds no other transition. Every pushed set is a state stored after `current`. Every pushed set is the successor `clousre(goto(I, X))` of an item of `I`. |
| LrAutomaton.ScanExpandsOrigin | index.ts:412-426 | Scanning the set at `current` from its own state gives every item of that state with a next symbol its transition: that state ends up expanded. |
| LrAutomaton.Step | index.ts:409-427 | One pass of the `do`-`while` keeps the loop invariant: good states, every worklist set stored, a bounded worklist. It keeps every state and transition, and the state of the set at `current` ends up expanded. The sets it pushes are successors of the set at `current`. |
| LrAutomaton.Explore | index.ts:409-428 | The loop terminates with a good automaton whose state 0 is the initial state. It keeps the states and transitions it starts with. Every set on the worklist from `current` on ends with its state expanded, and so does every set the loop pushes later (`Pushed`). |
| LrAutomaton.StartAutomaton | index.ts:401-407 | Before the loop, the automaton holds state 0 alone and no transitions, and the loop invariant holds. |
| LrAutomaton.InitialInv | index.ts:401-408 | State 0 stored and pushed establishes the loop invariant. |
| LrAutomaton.InitWorklist | index.ts:405-414 | The worklist of `init` starts with state 0's set. |
| LrAutomaton.Init | index.ts:397-430 | On an empty grammar nothing is built. Otherwise state 0 is `clousre({(0, 0)})` and is expanded, and so is the state of every set the loop ever pushes onto its worklist. The automaton is good. |
| LrAutomaton.InitStates | index.ts:397-430 | Every stored item has `rule_number < \|rules\|` and `dot_pos <= \|rhs\|`. Every state is duplicate-free and closed. |
| LrAutomaton.InitNotSimilar | index.ts:397-430 | Stored states are pairwise not similar. |
| LrAutomaton.InitTransitions | index.ts:397-430 | No triple is recorded twice. Each transition's symbol follows the dot in some item of its origin. Its target is similar to `clousre(goto(origin, X))`. |
| LrAutomaton.Deterministic | index.ts:420-424 | Two transitions with the same origin and symbol have the same target. |
| LrAutomaton.ConnectsInRange | index.ts:424 | Every transition's origin and target are stored states. |
| LostStates.StepFacts | index.ts:409-427 | One pass keeps the old states and stays pairwise distinct. It adds transitions only from a state holding the scanned set and pushes only sets of states after `current`. |
| LostStates.StepKeepsSkipped | index.ts:409-427 | A state at or before `current` with no transition, whose items no later worklist entry holds, stays so after one pass. |
| LostStates.ExploreKeepsSkipped | index.ts:409-428 | Such a state still has no transition when the loop ends. |
| LostStates.ExploreNextKeepsSkipped | index.ts:409-428 | The same for the rest of the loop after one pass. |
| LostStates.LateStateNeverScanned | index.ts:421-428 | A state appended during the pass at `current` with an index not above `current` ends with no outgoing transition. |
| LostStates.LateStateIncomplete | index.ts:421-423 | If that state holds an item with a next symbol, the automaton `init` returns is not complete. |
| LostStates.RevisitAppends | index.ts:409-428 | A one-item state stored once and on the worklist twice, at position 1, whose successor holds an item the state lacks: the pass at position 1 appends exactly one state, at index 1, holding that item. |
| LostStates.RevisitedStateLoses | index.ts:409-428 | In that configuration, if the item has a next symbol, the automaton the loop ends with is not complete. |
| LostStates.LateStateExample | index.ts:409-428 | For the grammar `S -> a b`, the configuration with state 0 stored once, on the worklist twice, at position 1, meets the loop invariant. The loop ends with no transition on `b` from state 1. `init` never reaches this configuration on that grammar; it is built by hand to show that the requires of `LateStateIncomplete` can be met. |
| CompleteAutomaton.ScanExpands | index.ts:415-426 | Scanning a state as the origin of its own transitions gives each of its items with a next symbol a transition. |
| CompleteAutomaton.ScanKeepsFixInv | index.ts:409-427 | Corrected loop: after scanning state `current`, every state up to it is expanded. |
| CompleteAutomaton.ExpandOne | index.ts:409-427 | Corrected loop, one pass: the invariant moves on to `current + 1`. |
| CompleteAutomaton.Expand | index.ts:409-428 | The corrected loop terminates with a good automaton in which every state is expanded. |
| CompleteAutomaton.ExpandNext | index.ts:409-428 | The same for the rest of the corrected loop. |
| CompleteAutomaton.InitFixed | index.ts:397-430 | Corrected `init`: nothing on an empty grammar. Otherwise state 0 is `clousre({(0, 0)})`, and the automaton is good and complete. |
| CompleteAutomaton.CompleteGoesOn | index.ts:415-424 | In a good, complete automaton every item with a next symbol has its justified transition. |
| CompleteAutomaton.InitFixedTransitions | index.ts:415-424 | Each state of the corrected automaton has, for every item with a next symbol `X`, a transition on `X` to the state similar to `clousre(goto(state, X))`. |
| CompleteAutomaton.InitFixedOnlyTransitions | index.ts:415-424 | Conversely, every transition of the corrected automaton is such a transition, recorded once. |
| Tables.EmptyRow | index.ts:320-323 | A new row has one empty cell per terminal column and per variable column. |
| Tables.NewTable | index.ts:316-324 | `size` rows, the given columns, and every cell empty. |
| Tables.SideOf | index.ts:327-328 | `add_cmd` picks the variable half of a row exactly for a `NON_TERMINAL` token, and the terminal half otherwise. |
| Tables.FindColumn | index.ts:329 | Returns -1 iff no header has the name. Otherwise it returns the first header with that name; the kind is not compared. |
| Tables.AddCmd | index.ts:325-341 | Appends the action to exactly the cell of row `state` in the first column of the token's side named like it. Every other cell is unchanged and nothing is overwritten. |
| LrTable.ColumnsOf | index.ts:474-478 | The table `table` builds has the grammar's terminals and variables as column headers. |
| LrTable.ActionOf | index.ts:482-488 | A transition gives Shift to its target for a terminal symbol and Go otherwise, never Reduce. |
| LrTable.AddTransitions | index.ts:480-490 | After the transition loop, every cell holds the actions of the transitions that hit it, in transition order. |
| LrTable.AddToTerminals | index.ts:503 | Offering one action to every terminal appends it once per terminal that hits a cell of that row, and touches no other row. |
| LrTable.AddReduces | index.ts:493-504 | The item loop appends Reduce for every complete item of the state, once per terminal, to that state's row only. |
| LrTable.BuildTable | index.ts:472-506 | `table` gives one row per state and the automaton's columns. Every cell holds exactly its transition actions and then its reduces. |
| LrTable.ConnectActionsMember | index.ts:480-490 | An action is in a cell's transition part iff some transition targets that cell with that action. |
| LrTable.TermHitsMember | index.ts:503 | An action is in the terminals part iff it is the offered action and some terminal hits that cell. |
| LrTable.ReduceActionsMember | index.ts:491-504 | An action is in a cell's reduce part iff it is Reduce by the rule of some complete item of the state and some terminal hits the cell. |
| LrTable.CellExact | index.ts:472-506 | An action is in a table cell iff a transition or a complete item puts it there. |
| LrTable.TransitionInCell | index.ts:480-490 | Each transition's Shift or Go is in the cell of its origin and its symbol's column. |
| LrTable.ReduceInCell | index.ts:491-504 | Each complete item of state `i` puts Reduce by its rule in every terminal column of row `i`. |
| LrTable.CellKinds | index.ts:472-506 | Terminal columns never hold Go. When every terminal has the terminal kind, variable columns hold only Go, so no Reduce. |
| LrTable.GraphOkTableReady | index.ts:472-506 | Every automaton `init` builds meets what `table` needs: transition origins are states and items name existing rules. |

## Left out

- The removal operations `rm_rule`, `rm_item`, `rm_state`, `rm_state_by_index` and `disconnect` are not modelled, because the construction never calls them.
- The console output (`Gramer.print`, `TableLR.print`) and the array helpers `print_all` and `filter_by` are left out; they are I/O. The optional `title` argument of the `Gramer` constructor (index.ts:158) feeds only `print`, so `Grammars.NewGrammar` does not take it.
- The stubs `is_ambiguous`, `rslv_ambiguous`, `left_factoring`, `left_recursion`, `rm_cmd`, `ad_row` and `rm_row` have no behaviour and are left out.
- `init_gramer` and `main` only build and print a sample grammar, so they are left out.
- `TokenVariable` and `TokenTerminal` are intersection type aliases over `IToken` (index.ts:46-47), fixing its `type` field. They are modelled as the one `Token` datatype with a kind field. The type discipline that a rule's left-hand side is a variable is not enforced.
- `init` and `table` mutate the `LR` object; here they are functions and methods that return the automaton and the table.
- `LrAutomaton.Init` always starts from an empty automaton. A second call of `init` on an `LR` object that already holds states is not modelled.
- `LrAutomaton.Init`: does not promise that every state is expanded, because as written it is not (see Findings). It promises expansion for state 0 and for the state of every set on the worklist. A state whose set is never pushed can stay unexpanded: one appended while the loop is at a worklist position at or beyond its index (`LostStates.LateStateNeverScanned`). `CompleteAutomaton.InitFixed` promises that every state is expanded.
- `Dfas.Connect`: compares tokens by value, whereas the source compares token objects by reference (`===`). Two equal tokens built separately would make two transitions in the source and one in the model.
- `Tables.AddCmd`: requires `state < |t.rows|`. For a row index outside the table the source reads a property of `undefined` and throws a `TypeError` (index.ts:328); the model does not represent that exception. `LrTable.BuildTable` only passes state indices of the automaton, for which the table has a row.
- `Tables.AddCmd`: a token named like no column makes the source write the array property `-1`, which is not a cell. The model leaves the grid unchanged in that case instead of making the missing column a precondition, since the source accepts the call.
- `Lr.Goto`: requires every item to name an existing rule. The source throws a `TypeError` on a missing rule, and the model does not represent that exception.
- `Lr.Closure`: has the same precondition as `Lr.Goto`, for the same reason.
- `LrTable.BuildTable`: requires transition origins to be states and items to name rules (`TableReady`); the source would throw otherwise. `LrTable.GraphOkTableReady` shows that every automaton `init` builds meets this.
- Integer widths are not modelled. JavaScript numbers stay exact here because indices are far below 2^53.

## Findings

| source | as written | input that shows it | evidently intended | confidence | as-written member | corrected member |
|---|---|---|---|---|---|---|
| index.ts:421-423 | A state is pushed onto the worklist only if `next_index > current`, which compares a state index with a worklist position. The worklist runs ahead of the state list when an existing state is reached again. A new state whose index is not above `current` is then never pushed and never scanned. | Rules `Z -> S`, `S -> a b`, `S -> a c d e`. State 2 (`S -> a . b`, `S -> a . c d e`) is pushed twice, so state 4 (`S -> a c . d e`) sits at worklist position 5. While position 5 is processed, state 5 (`S -> a c d . e`) is created with index 5. It is not pushed, and the automaton has no transition on `e`. This trace is worked by hand. `LrAutomaton.PushTestRepushesOldState` proves the re-push that makes the worklist run ahead, and `LrAutomaton.PushTestSkipsNewState` proves that a new state at or below `current` is not pushed. `LostStates.LateStateExample` proves the same loss, but from a hand-built loop configuration (state 0 stored once, on the worklist twice, at position 1) that `init` never reaches on its grammar `S -> a b`. | Every state added to the automaton is eventually scanned, giving the complete LR(0) automaton. | not executed | LostStates.LateStateIncomplete | CompleteAutomaton.InitFixed |
| index.ts:169-173 | The duplicate test of `add_rule` returns false as soon as one position of an existing rule, with the same left-hand side and length, holds an equal token. Rules that differ elsewhere are refused. Rules with an empty right-hand side are never compared, so they are accepted again. | `S -> a b` then `S -> a c`: refused. `S -> ε` twice: both accepted. | Refuse exactly when the whole rule is already present. | not executed | Grammars.AddRuleRefusesDistinctRule | Grammars.AddRuleExact |

=== FILE: automaton.dfy ===
/** `LR.init` of index.ts: the worklist loop that builds the canonical
    LR(0) collection as a `DFA<ItemSet>`, modelled as pure recursive
    functions (one per loop of the source) over an explicit automaton
    value. The loop is modelled as written, including its push test; a
    second construction (`CompleteAutomaton.InitFixed`) visits every state it creates.

    Why recursion and not a loop method: the `do`-`while` stops only
    because the worklist cannot outgrow the number of distinct states,
    which is at most 2 to the number of items (`StatesBounded`). That bound
    is the `decreases` measure of `Explore`, and functions let `Init`,
    its lemmas and the table builder all talk about the automaton `init`
    returns. The ghost function `Pushed` follows the same recursion to
    name the sets the loop pushes onto `Ilist`. */
module LrAutomaton {
  import opened Tokens
  import opened Grammars
  import opened Items
  import opened Collections
  import opened Dfas
  import opened Lr

  type Automaton = Dfa<ItemSet>

  /** The rule of `it` has a symbol after the dot. */
  predicate HasNext(g: Grammar, it: Item) {
    it.ruleNumber < |g.rules| && it.dotPos < |g.rules[it.ruleNumber].rhs|
  }

  function NextToken(g: Grammar, it: Item): Token
    requires HasNext(g, it)
  {
    g.rules[it.ruleNumber].rhs[it.dotPos]
  }

  /** What every stored state satisfies: no repeated item, every item
      inside its rule, and closed. */
  ghost predicate GoodSet(g: Grammar, s: ItemSet) {
    NoDup(s) && WellFormed(g, s) && Closed(g, Elems(s))
  }

  /** States `i` and `j` do not hold the same items. */
  ghost predicate Apart(states: seq<ItemSet>, i: nat, j: nat) {
    i < j < |states| ==> Elems(states[i]) != Elems(states[j])
  }

  /** No two states hold the same items. The quantifier fires only on an
      explicit `Apart` term, so that the pairs of states are looked at only
      where a proof asks for them. */
  ghost predicate Distinct(states: seq<ItemSet>) {
    forall i: nat, j: nat {:trigger Apart(states, i, j)} :: Apart(states, i, j)
  }

  /** A transition is what the construction records: its token is the
      symbol after the dot of an item of the origin, and the target holds
      the items of the closure of the origin's successor on that token. */
  ghost predicate Justified(g: Grammar, states: seq<ItemSet>, c: Connection) {
    && 0 <= c.origin < |states| && 0 <= c.target < |states|
    && RulesExist(g, states[c.origin])
    && (exists it :: it in states[c.origin] && HasNext(g, it) && NextToken(g, it) == c.token)
    && Elems(states[c.target]) == Elems(Closure(g, Goto(g, states[c.origin], c.token)))
  }

  ghost predicate StatesOk(g: Grammar, states: seq<ItemSet>) {
    && (forall i {:trigger GoodSet(g, states[i])} :: 0 <= i < |states| ==> GoodSet(g, states[i]))
    && Distinct(states)
  }

  ghost predicate GraphOk(g: Grammar, d: Automaton) {
    && StatesOk(g, d.states)
    && NoDup(d.connects)
    && forall c {:trigger Justified(g, d.states, c)} :: c in d.connects ==> Justified(g, d.states, c)
  }

  /** `s` is a good set whose items some stored state holds. */
  ghost predicate Represented(g: Grammar, states: seq<ItemSet>, s: ItemSet) {
    GoodSet(g, s) && exists i :: 0 <= i < |states| && Elems(states[i]) == Elems(s)
  }

  /** Every item the construction can meet: a rule and a dot inside it. */
  function Universe(g: Grammar): set<Item> {
    set r: nat, d: nat | r < |g.rules| && d <= |g.rules[r].rhs| :: Item(r, d)
  }

  /** Bound on the number of items in a state. */
  ghost function ItemBound(g: Grammar): nat {
    |Universe(g)|
  }

  /** Bound on the number of states: one per subset of the universe. */
  ghost function StateBound(g: Grammar): nat {
    Pow2(|Universe(g)|)
  }

  function Min(a: nat, b: nat): nat {
    if a <= b then a else b
  }

  /** State 0: the closure of `{(0, 0)}`, rule 0 taken as the start rule. */
  function InitialState(g: Grammar): (s: ItemSet)
    requires |g.rules| > 0
    ensures GoodSet(g, s)
    ensures Item(0, 0) in s
  {
    Closure(g, AddItem([], Item(0, 0)).0)
  }

  // ---------------------------------------------------------------------
  // Bounds

  lemma WellFormedInUniverse(g: Grammar, s: ItemSet)
    requires WellFormed(g, s)
    ensures Elems(s) <= Universe(g)
  {
    forall it | it in Elems(s) ensures it in Universe(g) {
      assert it == Item(it.ruleNumber, it.dotPos);
    }
  }

  /** A good state has at most as many items as the universe. */
  lemma ItemsBounded(g: Grammar, s: ItemSet)
    requires GoodSet(g, s)
    ensures |s| <= ItemBound(g)
  {
    WellFormedInUniverse(g, s);
    NoDupLength(s, Universe(g));
  }

  /** Pairwise distinct good states are at most as many as the subsets of
      the universe. */
  lemma StatesBounded(g: Grammar, states: seq<ItemSet>)
    requires StatesOk(g, states)
    ensures |states| <= StateBound(g)
  {
    var key := (s: ItemSet) => Elems(s);
    forall i, j | 0 <= i < j < |states| ensures key(states[i]) != key(states[j]) {
      assert Apart(states, i, j);
    }
    DistinctKeysCard(states, key);
    var family := Keys(states, key);
    forall t | t in family ensures t <= Universe(g) {
      var i :| 0 <= i < |states| && t == key(states[i]);
      assert GoodSet(g, states[i]);
      WellFormedInUniverse(g, states[i]);
    }
    FamilyBound(family, Universe(g));
  }

  // ---------------------------------------------------------------------
  // Facts about one transition

  /** `add_state` on item sets keeps the states good and distinct, and the
      returned index holds the items of the argument. */
  lemma AddStateKeepsStates(g: Grammar, d: Automaton, s: ItemSet)
    requires StatesOk(g, d.states) && GoodSet(g, s)
    ensures StatesOk(g, AddState(d, s, IsSimilar).0.states)
    ensures Elems(AddState(d, s, IsSimilar).0.states[AddState(d, s, IsSimilar).1]) == Elems(s)
  {
    var (d', i) := AddState(d, s, IsSimilar);
    if exists k :: 0 <= k < |d.states| && IsSimilar(d.states[k], s) {
      assert GoodSet(g, d.states[i]);
      SimilarIffSameItems(d.states[i], s);
    } else {
      forall k | 0 <= k < |d.states| ensures Elems(d.states[k]) != Elems(s) {
        assert GoodSet(g, d.states[k]);
        SimilarIffSameItems(d.states[k], s);
      }
      assert forall k :: 0 <= k < |d.states| ==> d'.states[k] == d.states[k];
      forall i: nat, j: nat ensures Apart(d'.states, i, j) {
        if j < |d.states| {
          assert Apart(d.states, i, j);
        }
      }
    }
  }

  /** A transition stays justified when states are only appended. */
  lemma JustifiedGrows(g: Grammar, states: seq<ItemSet>, states': seq<ItemSet>, c: Connection)
    requires states <= states'
    requires Justified(g, states, c)
    ensures Justified(g, states', c)
  {
    assert states'[c.origin] == states[c.origin];
    assert states'[c.target] == states[c.target];
  }

  lemma RepresentedGrows(g: Grammar, states: seq<ItemSet>, states': seq<ItemSet>, s: ItemSet)
    requires states <= states'
    requires Represented(g, states, s)
    ensures Represented(g, states', s)
  {
    var i :| 0 <= i < |states| && Elems(states[i]) == Elems(s);
    assert states'[i] == states[i];
  }

  /** Appending good, distinct states keeps every recorded transition
      justified. */
  lemma GraphGrows(g: Grammar, d: Automaton, states': seq<ItemSet>)
    requires GraphOk(g, d) && StatesOk(g, states')
    requires d.states <= states'
    ensures GraphOk(g, Dfa(states', d.connects))
  {
    forall c | c in d.connects ensures Justified(g, states', c) {
      JustifiedGrows(g, d.states, states', c);
    }
  }

  /** `connect` with a justified transition keeps the graph good. */
  lemma ConnectKeepsGraph(g: Grammar, d: Automaton, c: Connection)
    requires GraphOk(g, d) && Justified(g, d.states, c)
    ensures GraphOk(g, Connect(d, c.origin, c.target, c.token))
  {
    var d' := Connect(d, c.origin, c.target, c.token);
    assert d'.states == d.states;
    forall c' | c' in d'.connects ensures Justified(g, d.states, c') {
      assert c' in Elems(d'.connects);
      if c' != c {
        assert c' in Elems(d.connects);
      }
    }
  }

  /** The transition from the state at `ci` on the symbol after the dot of
      `it` to a state holding the items of the successor's closure is
      justified. */
  lemma NewTransitionJustified(g: Grammar, I: ItemSet, it: Item, states: seq<ItemSet>, ci: nat, ni: nat)
    requires GoodSet(g, I) && it in I && HasNext(g, it)
    requires ci < |states| && ni < |states|
    requires GoodSet(g, states[ci]) && Elems(states[ci]) == Elems(I)
    requires Elems(states[ni]) == Elems(Closure(g, Goto(g, I, NextToken(g, it))))
    ensures Justified(g, states, Connection(ci, ni, NextToken(g, it)))
  {
    var token := NextToken(g, it);
    GotoSameItems(g, I, states[ci], token);
    ClosureSameItems(g, Goto(g, I, token), Goto(g, states[ci], token));
    assert it in states[ci] by {
      assert it in Elems(I);
    }
  }

  /** The closure of a good set's successor is a good set. */
  lemma SuccessorGood(g: Grammar, I: ItemSet, x: Token)
    requires GoodSet(g, I)
    ensures GoodSet(g, Closure(g, Goto(g, I, x)))
  {
  }

  /** The loop body of `init` for an item with a symbol after the dot:
      `add_state` of the closure of the successor, then `connect` from the
      state at `ci`. Returns the automaton and the index `add_state`
      gave. */
  function Transition(g: Grammar, I: ItemSet, ci: nat, d: Automaton, it: Item): (res: (Automaton, nat))
    requires GoodSet(g, I) && it in I && HasNext(g, it)
    requires GraphOk(g, d) && ci < |d.states| && Elems(d.states[ci]) == Elems(I)
    ensures GraphOk(g, res.0)
    ensures d.states <= res.0.states && |res.0.states| <= |d.states| + 1
    ensures Elems(res.0.connects) == Elems(d.connects) + {Connection(ci, res.1, NextToken(g, it))}
    ensures res.1 < |res.0.states|
    ensures Elems(res.0.states[res.1]) == Elems(Closure(g, Goto(g, I, NextToken(g, it))))
    ensures Connection(ci, res.1, NextToken(g, it)) in res.0.connects
    ensures res.1 as int == IndexState(res.0, Closure(g, Goto(g, I, NextToken(g, it))), IsSimilar)
    ensures res.1 < |d.states| ==> res.0.states == d.states
  {
    var token := NextToken(g, it);
    var next := Closure(g, Goto(g, I, token));
    SuccessorGood(g, I, token);
    var (d1, ni) := AddState(d, next, IsSimilar);
    AddStateIndex(d, next, IsSimilar);
    AddStateKeepsStates(g, d, next);
    GraphGrows(g, d, d1.states);
    assert d1.states[ci] == d.states[ci];
    assert GoodSet(g, d1.states[ci]);
    NewTransitionJustified(g, I, it, d1.states, ci, ni);
    ConnectKeepsGraph(g, d1, Connection(ci, ni, token));
    var d2 := Connect(d1, ci, ni, token);
    assert Connection(ci, ni, token) in Elems(d2.connects);
    (d2, ni)
  }

  /** The index `index_state` finds for a represented set. */
  lemma FindRepresented(g: Grammar, d: Automaton, s: ItemSet)
    requires StatesOk(g, d.states) && Represented(g, d.states, s)
    ensures 0 <= IndexState(d, s, IsSimilar)
    ensures Elems(d.states[IndexState(d, s, IsSimilar)]) == Elems(s)
  {
    var i :| 0 <= i < |d.states| && Elems(d.states[i]) == Elems(s);
    assert GoodSet(g, d.states[i]);
    SimilarIffSameItems(d.states[i], s);
    var r := IndexState(d, s, IsSimilar);
    assert GoodSet(g, d.states[r]);
    SimilarIffSameItems(d.states[r], s);
  }

  // ---------------------------------------------------------------------
  // The loops of init

  /** Every transition of `cs'` is one of `cs` or leaves state `ci`. */
  ghost predicate OnlyNewFrom(cs: seq<Connection>, cs': seq<Connection>, ci: int) {
    forall c :: c in cs' ==> c in cs || c.origin == ci
  }

  /** `s` holds the items of some state after position `current`. */
  ghost predicate PushedAfter(states: seq<ItemSet>, s: ItemSet, current: nat) {
    exists k :: current < k < |states| && Elems(states[k]) == Elems(s)
  }

  /** Every set of `ps` holds the items of a state after `current`. */
  ghost predicate AllPushedAfter(states: seq<ItemSet>, ps: seq<ItemSet>, current: nat) {
    forall p :: 0 <= p < |ps| ==> PushedAfter(states, ps[p], current)
  }

  lemma PushedAfterGrows(states: seq<ItemSet>, states': seq<ItemSet>, s: ItemSet, current: nat)
    requires states <= states' && PushedAfter(states, s, current)
    ensures PushedAfter(states', s, current)
  {
    var k :| current < k < |states| && Elems(states[k]) == Elems(s);
    assert states'[k] == states[k];
  }

  /** A list grown by one transition gains transitions from its origin
      only. */
  lemma AddedFrom(cs: seq<Connection>, cs': seq<Connection>, c0: Connection)
    requires Elems(cs') == Elems(cs) + {c0}
    ensures OnlyNewFrom(cs, cs', c0.origin)
  {
    forall c | c in cs' ensures c in cs || c.origin == c0.origin {
      assert c in Elems(cs');
    }
  }

  lemma OnlyNewFromTrans(cs1: seq<Connection>, cs2: seq<Connection>, cs3: seq<Connection>, ci: int)
    requires OnlyNewFrom(cs1, cs2, ci) && OnlyNewFrom(cs2, cs3, ci)
    ensures OnlyNewFrom(cs1, cs3, ci)
  {
  }

  /** The sets the item loop over `I` may push: `clousre(goto(I, X))` for
      the symbol `X` after the dot of each item of `I` that has one. */
  ghost function Successors(g: Grammar, I: ItemSet): set<ItemSet>
    requires GoodSet(g, I)
  {
    set k | 0 <= k < |I| && HasNext(g, I[k]) :: Closure(g, Goto(g, I, NextToken(g, I[k])))
  }

  /** Every set of `ps` is a successor of the good set `I`. */
  ghost predicate PushesSuccessors(g: Grammar, I: ItemSet, ps: seq<ItemSet>) {
    GoodSet(g, I) && Elems(ps) <= Successors(g, I)
  }

  /** Gluing the pushes of one item to those of the rest of the scan. */
  lemma PushesJoin(states1: seq<ItemSet>, states2: seq<ItemSet>, p1: seq<ItemSet>, p2: seq<ItemSet>, current: nat)
    requires states1 <= states2 && |p1| <= 1
    requires p1 != [] ==> PushedAfter(states1, p1[0], current)
    requires AllPushedAfter(states2, p2, current)
    ensures AllPushedAfter(states2, p1 + p2, current)
  {
    if p1 != [] {
      PushedAfterGrows(states1, states2, p1[0], current);
    }
    forall p | 0 <= p < |p1 + p2| ensures PushedAfter(states2, (p1 + p2)[p], current) {
      if p >= |p1| {
        assert (p1 + p2)[p] == p2[p - |p1|];
      }
    }
  }


  /** The body of the item loop of `init` for `I[j]`: for an item with a
      symbol after the dot, the closure of the successor on that symbol is
      registered with `add_state`, pushed onto the worklist when
      `next_index > current` (compared as written: a state index against a
      worklist position), and connected from `ci`. Returns the automaton
      and what was pushed. */
  function ScanOne(g: Grammar, I: ItemSet, ci: nat, current: nat, j: nat, d: Automaton): (res: (Automaton, seq<ItemSet>))
    requires j < |I| && GoodSet(g, I)
    requires GraphOk(g, d) && ci < |d.states| && Elems(d.states[ci]) == Elems(I)
    ensures GraphOk(g, res.0)
    ensures d.states <= res.0.states && |res.0.states| <= |d.states| + 1
    ensures Elems(d.connects) <= Elems(res.0.connects)
    ensures |res.1| <= 1
    ensures res.1 != [] ==> current + 1 < |res.0.states| && Represented(g, res.0.states, res.1[0])
    ensures HasNext(g, I[j]) ==> exists t :: Connection(ci, t, NextToken(g, I[j])) in res.0.connects
    ensures OnlyNewFrom(d.connects, res.0.connects, ci)
    ensures res.1 != [] ==> PushedAfter(res.0.states, res.1[0], current)
    ensures !HasNext(g, I[j]) ==> res == (d, [])
    ensures HasNext(g, I[j]) ==>
              (res.1 != [] <==> IndexState(res.0, Closure(g, Goto(g, I, NextToken(g, I[j]))), IsSimilar) > current)
    ensures res.1 != [] ==> res.1 == [Closure(g, Goto(g, I, NextToken(g, I[j])))]
  {
    var it := I[j];
    if !HasNext(g, it) then (d, [])
    else
      var next := Closure(g, Goto(g, I, NextToken(g, it)));
      var (d2, ni) := Transition(g, I, ci, d, it);
      SuccessorGood(g, I, NextToken(g, it));
      assert Elems(d2.states[ni]) == Elems(next);
      assert Represented(g, d2.states, next);
      assert Connection(ci, ni, NextToken(g, I[j])) in d2.connects;
      AddedFrom(d.connects, d2.connects, Connection(ci, ni, NextToken(g, it)));
      if ni > current then (d2, [next]) else (d2, [])
  }

  /** What `ScanOne` pushes is a successor of `I`, on the next symbol of
      item `j`. */
  lemma ScanOneSuccessor(g: Grammar, I: ItemSet, ci: nat, current: nat, j: nat, d: Automaton)
    requires j < |I| && GoodSet(g, I)
    requires GraphOk(g, d) && ci < |d.states| && Elems(d.states[ci]) == Elems(I)
    ensures Elems(ScanOne(g, I, ci, current, j, d).1) <= Successors(g, I)
  {
    var ps := ScanOne(g, I, ci, current, j, d).1;
    if ps != [] {
      InSuccessors(g, I, j);
    }
  }

  /** The successor on item `j`'s next symbol is one of `Successors`. */
  lemma InSuccessors(g: Grammar, I: ItemSet, j: nat)
    requires GoodSet(g, I) && j < |I| && HasNext(g, I[j])
    ensures Closure(g, Goto(g, I, NextToken(g, I[j]))) in Successors(g, I)
  {
  }

  /** Among good states, a good set is similar to exactly the state that
      holds its items. */
  lemma SimilarOnlyAt(g: Grammar, states: seq<ItemSet>, s: ItemSet, k: nat)
    requires StatesOk(g, states) && GoodSet(g, s)
    requires k < |states| && Elems(states[k]) == Elems(s)
    ensures forall m :: 0 <= m < |states| ==> (IsSimilar(states[m], s) <==> m == k)
  {
    forall m | 0 <= m < |states| ensures IsSimilar(states[m], s) <==> m == k {
      assert GoodSet(g, states[m]);
      SimilarIffSameItems(states[m], s);
      assert Apart(states, m, k) && Apart(states, k, m);
    }
  }

  /** A transition whose successor is already stored at index `k` leads to
      `k` and adds no state. */
  lemma TransitionToStored(g: Grammar, I: ItemSet, ci: nat, d: Automaton, it: Item, k: nat)
    requires GoodSet(g, I) && it in I && HasNext(g, it)
    requires GraphOk(g, d) && ci < |d.states| && Elems(d.states[ci]) == Elems(I)
    requires k < |d.states| && Elems(d.states[k]) == Elems(Closure(g, Goto(g, I, NextToken(g, it))))
    ensures Transition(g, I, ci, d, it).1 == k
    ensures Transition(g, I, ci, d, it).0.states == d.states
  {
    var next := Closure(g, Goto(g, I, NextToken(g, it)));
    SuccessorGood(g, I, NextToken(g, it));
    var r := Transition(g, I, ci, d, it);
    assert r.0.states[k] == d.states[k];
    SimilarOnlyAt(g, r.0.states, next, k);
  }

  /** The other half of the push test as written: when the successor is
      already stored at an index above `current`, no state is added, and
      the set is pushed again although it is not new. */
  lemma PushTestRepushesOldState(g: Grammar, I: ItemSet, ci: nat, current: nat, j: nat, d: Automaton, k: nat)
    requires j < |I| && GoodSet(g, I)
    requires GraphOk(g, d) && ci < |d.states| && Elems(d.states[ci]) == Elems(I)
    requires HasNext(g, I[j])
    requires current < k < |d.states| && Elems(d.states[k]) == Elems(Closure(g, Goto(g, I, NextToken(g, I[j]))))
    ensures ScanOne(g, I, ci, current, j, d).0.states == d.states
    ensures ScanOne(g, I, ci, current, j, d).1 == [Closure(g, Goto(g, I, NextToken(g, I[j])))]
  {
    TransitionToStored(g, I, ci, d, I[j], k);
  }

  /** The push test as written compares a state index with a worklist
      position. Once the worklist has run ahead of the state list (a set is
      pushed again whenever an existing state with a larger index is
      reached), a brand-new state gets index `|d.states| <= current`: it
      is appended and connected but never pushed, so the loop never scans
      it and its own transitions are never built. */
  lemma PushTestSkipsNewState(g: Grammar, I: ItemSet, ci: nat, current: nat, j: nat, d: Automaton)
    requires j < |I| && GoodSet(g, I)
    requires GraphOk(g, d) && ci < |d.states| && Elems(d.states[ci]) == Elems(I)
    requires HasNext(g, I[j])
    requires forall k :: 0 <= k < |d.states| ==> Elems(d.states[k]) != Elems(Closure(g, Goto(g, I, NextToken(g, I[j]))))
    requires |d.states| <= current
    ensures |ScanOne(g, I, ci, current, j, d).0.states| == |d.states| + 1
    ensures ScanOne(g, I, ci, current, j, d).1 == []
  {
    var next := Closure(g, Goto(g, I, NextToken(g, I[j])));
    forall k | 0 <= k < |d.states| ensures !IsSimilar(d.states[k], next) {
      assert GoodSet(g, d.states[k]);
      SimilarIffSameItems(d.states[k], next);
    }
    var (d1, ni) := AddState(d, next, IsSimilar);
    assert ni == |d.states| && |d1.states| == |d.states| + 1;
    assert Transition(g, I, ci, d, I[j]).1 == ni;
  }

  /** The item loop of `init` from position `j` of `I`. */
  function ScanItems(g: Grammar, I: ItemSet, ci: nat, current: nat, j: nat, d: Automaton): (res: (Automaton, seq<ItemSet>))
    requires j <= |I| && GoodSet(g, I)
    requires GraphOk(g, d) && ci < |d.states| && Elems(d.states[ci]) == Elems(I)
    ensures GraphOk(g, res.0)
    ensures d.states <= res.0.states && |res.0.states| <= |d.states| + |I| - j
    ensures Elems(d.connects) <= Elems(res.0.connects)
    ensures |res.1| <= |I| - j
    ensures res.1 != [] ==> current + 1 < |res.0.states|
    ensures forall p {:trigger Represented(g, res.0.states, res.1[p])} :: 0 <= p < |res.1| ==> Represented(g, res.0.states, res.1[p])
    ensures forall k :: j <= k < |I| && HasNext(g, I[k]) ==>
              exists t :: Connection(ci, t, NextToken(g, I[k])) in res.0.connects
    ensures OnlyNewFrom(d.connects, res.0.connects, ci)
    ensures AllPushedAfter(res.0.states, res.1, current)
    ensures Elems(res.1) <= Successors(g, I)
    decreases |I| - j
  {
    if j == |I| then (d, [])
    else
      var (d1, p1) := ScanOne(g, I, ci, current, j, d);
      assert d1.states[ci] == d.states[ci];
      var (d2, p2) := ScanItems(g, I, ci, current, j + 1, d1);
      ScanJoin(g, I, ci, j, d, d1, d2, p1, p2);
      OnlyNewFromTrans(d.connects, d1.connects, d2.connects, ci);
      PushesJoin(d1.states, d2.states, p1, p2, current);
      ScanOneSuccessor(g, I, ci, current, j, d);
      ElemsAppend(p1, p2);
      (d2, p1 + p2)
  }

  /** Gluing one step of the item loop to the rest of it. */
  lemma ScanJoin(g: Grammar, I: ItemSet, ci: nat, j: nat, d: Automaton, d1: Automaton, d2: Automaton,
                 p1: seq<ItemSet>, p2: seq<ItemSet>)
    requires j < |I|
    requires d.states <= d1.states
    requires d1.states <= d2.states
    requires Elems(d1.connects) <= Elems(d2.connects)
    requires |p1| <= 1 && (p1 != [] ==> Represented(g, d1.states, p1[0]))
    requires forall p {:trigger Represented(g, d2.states, p2[p])} :: 0 <= p < |p2| ==> Represented(g, d2.states, p2[p])
    requires HasNext(g, I[j]) ==> exists t :: Connection(ci, t, NextToken(g, I[j])) in d1.connects
    requires forall k :: j + 1 <= k < |I| && HasNext(g, I[k]) ==>
               exists t :: Connection(ci, t, NextToken(g, I[k])) in d2.connects
    ensures d.states <= d2.states
    ensures forall p {:trigger Represented(g, d2.states, (p1 + p2)[p])} :: 0 <= p < |p1 + p2| ==> Represented(g, d2.states, (p1 + p2)[p])
    ensures forall k :: j <= k < |I| && HasNext(g, I[k]) ==>
              exists t :: Connection(ci, t, NextToken(g, I[k])) in d2.connects
  {
    PrefixTrans(d.states, d1.states, d2.states);
    if p1 != [] {
      RepresentedGrows(g, d1.states, d2.states, p1[0]);
    }
    forall p | 0 <= p < |p1 + p2| ensures Represented(g, d2.states, (p1 + p2)[p]) {
      if p < |p1| {
        assert (p1 + p2)[p] == p1[0];
      } else {
        assert (p1 + p2)[p] == p2[p - |p1|];
      }
    }
    if HasNext(g, I[j]) {
      var t :| Connection(ci, t, NextToken(g, I[j])) in d1.connects;
      assert Connection(ci, t, NextToken(g, I[j])) in Elems(d1.connects);
    }
  }

  /** What the outer loop of `init` keeps true between iterations:
      `current` is the worklist position, `wl` the list `Ilist`. */
  ghost predicate Inv(g: Grammar, d: Automaton, wl: seq<ItemSet>, current: nat) {
    && |g.rules| > 0
    && GraphOk(g, d)
    && |d.states| >= 1 && d.states[0] == InitialState(g)
    && current <= |wl|
    && (forall p {:trigger Represented(g, d.states, wl[p])} :: 0 <= p < |wl| ==> Represented(g, d.states, wl[p]))
    && |wl| <= 1 + Mul(Min(current, StateBound(g)), ItemBound(g))
  }

  /** The worklist after a step: every set on it, old or pushed, is
      represented among the grown states. */
  lemma WorklistGrows(g: Grammar, states: seq<ItemSet>, states': seq<ItemSet>, wl: seq<ItemSet>, pushes: seq<ItemSet>)
    requires states <= states'
    requires forall p {:trigger Represented(g, states, wl[p])} :: 0 <= p < |wl| ==> Represented(g, states, wl[p])
    requires forall p {:trigger Represented(g, states', pushes[p])} :: 0 <= p < |pushes| ==> Represented(g, states', pushes[p])
    ensures forall p {:trigger Represented(g, states', (wl + pushes)[p])} :: 0 <= p < |wl + pushes| ==> Represented(g, states', (wl + pushes)[p])
  {
    forall p | 0 <= p < |wl + pushes| ensures Represented(g, states', (wl + pushes)[p]) {
      if p < |wl| {
        RepresentedGrows(g, states, states', wl[p]);
      } else {
        assert (wl + pushes)[p] == pushes[p - |wl|];
      }
    }
  }

  /** The arithmetic of the worklist bound: a position pushes at most `u`
      sets, and pushes only while `current + 1` is below the number of
      states, itself at most `n`. */
  lemma BoundStep(current: nat, n: nat, u: nat, len: nat, pushed: nat, states: nat)
    requires current < len <= 1 + Mul(Min(current, n), u)
    requires pushed <= u && states <= n
    requires pushed > 0 ==> current + 1 < states
    ensures len + pushed <= 1 + Mul(Min(current + 1, n), u)
    ensures current + 1 <= 1 + Mul(n, u)
  {
    if pushed > 0 {
      assert Min(current + 1, n) == Min(current, n) + 1;
    } else {
      MulMono(Min(current, n), Min(current + 1, n), u);
    }
    MulMono(Min(current, n), n, u);
    if u == 0 {
      MulZero(Min(current, n));
    } else {
      MulAtLeast(Min(current, n), u);
    }
  }

  /** State `p` has an outgoing transition for the symbol after the dot of
      each of its items. */
  ghost predicate Expanded(g: Grammar, d: Automaton, p: nat) {
    && p < |d.states|
    && forall it :: it in d.states[p] && HasNext(g, it) ==>
         exists t :: Connection(p, t, NextToken(g, it)) in d.connects
  }

  /** Expansion survives appended states and added transitions. */
  lemma ExpandedGrows(g: Grammar, d: Automaton, d': Automaton, p: nat)
    requires d.states <= d'.states && Elems(d.connects) <= Elems(d'.connects)
    requires Expanded(g, d, p)
    ensures Expanded(g, d', p)
  {
    assert d'.states[p] == d.states[p];
    forall it | it in d'.states[p] && HasNext(g, it)
      ensures exists t :: Connection(p, t, NextToken(g, it)) in d'.connects
    {
      var t :| Connection(p, t, NextToken(g, it)) in d.connects;
      assert Connection(p, t, NextToken(g, it)) in Elems(d.connects);
    }
  }

  /** The item loop run with origin `ci` on the items of state `ci` expands
      that state. */
  lemma ScanExpandsOrigin(g: Grammar, I: ItemSet, ci: nat, current: nat, d: Automaton)
    requires GoodSet(g, I)
    requires GraphOk(g, d) && ci < |d.states| && Elems(d.states[ci]) == Elems(I)
    ensures Expanded(g, ScanItems(g, I, ci, current, 0, d).0, ci)
  {
    var r := ScanItems(g, I, ci, current, 0, d).0;
    assert r.states[ci] == d.states[ci];
    forall it | it in r.states[ci] && HasNext(g, it)
      ensures exists t :: Connection(ci, t, NextToken(g, it)) in r.connects
    {
      assert it in Elems(I);
      var k :| 0 <= k < |I| && I[k] == it;
    }
  }

  /** The state holding the items of `I` is expanded. */
  ghost predicate Scanned(g: Grammar, d: Automaton, I: ItemSet) {
    exists i :: 0 <= i < |d.states| && Elems(d.states[i]) == Elems(I) && Expanded(g, d, i)
  }

  /** Every set of the worklist `w` from position `current` on is scanned. */
  ghost predicate ScannedFrom(g: Grammar, d: Automaton, w: seq<ItemSet>, current: nat) {
    forall p :: current <= p < |w| ==> Scanned(g, d, w[p])
  }

  /** Scanned lists join. */
  lemma ScannedAppend(g: Grammar, d: Automaton, a: seq<ItemSet>, b: seq<ItemSet>)
    requires ScannedFrom(g, d, a, 0) && ScannedFrom(g, d, b, 0)
    ensures ScannedFrom(g, d, a + b, 0)
  {
    forall p | 0 <= p < |a + b| ensures Scanned(g, d, (a + b)[p]) {
      if p >= |a| {
        assert (a + b)[p] == b[p - |a|];
      }
    }
  }

  /** A scanned set stays scanned as states are appended and transitions
      added. */
  lemma ScannedGrows(g: Grammar, d: Automaton, d': Automaton, I: ItemSet)
    requires d.states <= d'.states && Elems(d.connects) <= Elems(d'.connects)
    requires Scanned(g, d, I)
    ensures Scanned(g, d', I)
  {
    var i :| 0 <= i < |d.states| && Elems(d.states[i]) == Elems(I) && Expanded(g, d, i);
    ExpandedGrows(g, d, d', i);
    assert d'.states[i] == d.states[i];
  }

  /** Among distinct states, the one holding the items of a scanned set is
      the expanded one. */
  lemma ScannedIndex(g: Grammar, d: Automaton, I: ItemSet, i: nat)
    requires Distinct(d.states) && Scanned(g, d, I)
    requires i < |d.states| && Elems(d.states[i]) == Elems(I)
    ensures Expanded(g, d, i)
  {
    var k :| 0 <= k < |d.states| && Elems(d.states[k]) == Elems(I) && Expanded(g, d, k);
    assert Apart(d.states, i, k) && Apart(d.states, k, i);
  }

  /** One iteration of the outer loop of `init`: the state at worklist
      position `current` is looked up with `index_state` and its items are
      scanned. The invariant is kept, and the worklist stays within
      `1 + StateBound * ItemBound` entries, since each position pushes at
      most one set per item and nothing once `current` has reached the
      last possible state index. */
  function Step(g: Grammar, d: Automaton, wl: seq<ItemSet>, current: nat): (res: (Automaton, seq<ItemSet>))
    requires Inv(g, d, wl, current) && current < |wl|
    ensures Inv(g, res.0, wl + res.1, current + 1)
    ensures current + 1 <= 1 + Mul(StateBound(g), ItemBound(g))
    ensures d.states <= res.0.states && Elems(d.connects) <= Elems(res.0.connects)
    ensures Scanned(g, res.0, wl[current])
    ensures PushesSuccessors(g, wl[current], res.1)
  {
    var I := wl[current];
    FindRepresented(g, d, I);
    var ci := IndexState(d, I, IsSimilar);
    var (d', pushes) := ScanItems(g, I, ci, current, 0, d);
    ScanExpandsOrigin(g, I, ci, current, d);
    assert d'.states[ci] == d.states[ci];
    ItemsBounded(g, I);
    StatesBounded(g, d'.states);
    WorklistGrows(g, d.states, d'.states, wl, pushes);
    BoundStep(current, StateBound(g), ItemBound(g), |wl|, |pushes|, |d'.states|);
    assert d'.states[0] == d.states[0];
    (d', pushes)
  }

  /** The outer loop of `init` from worklist position `current`. It keeps
      the states and transitions it starts with, and the state of every set
      on the worklist from `current` on ends up expanded. */
  function Explore(g: Grammar, d: Automaton, wl: seq<ItemSet>, current: nat): (r: Automaton)
    requires Inv(g, d, wl, current)
    ensures GraphOk(g, r)
    ensures |r.states| >= 1 && r.states[0] == InitialState(g)
    ensures d.states <= r.states && Elems(d.connects) <= Elems(r.connects)
    ensures ScannedFrom(g, r, wl, current)
    ensures ScannedFrom(g, r, Pushed(g, d, wl, current), 0)
    decreases 1 + Mul(StateBound(g), ItemBound(g)) - current, 1
  {
    if current == |wl| then d
    else
      var step := Step(g, d, wl, current);
      var r := ExploreNext(g, step, wl, current);
      PushedStep(g, d, wl, current);
      ExploreJoin(g, d, step, r, wl, Pushed(g, step.0, wl + step.1, current + 1), current);
      r
  }

  /** Gluing one pass of the outer loop to the rest of it. */
  lemma ExploreJoin(g: Grammar, d: Automaton, step: (Automaton, seq<ItemSet>), r: Automaton,
                    wl: seq<ItemSet>, rest: seq<ItemSet>, current: nat)
    requires current < |wl|
    requires d.states <= step.0.states && Elems(d.connects) <= Elems(step.0.connects)
    requires step.0.states <= r.states && Elems(step.0.connects) <= Elems(r.connects)
    requires Scanned(g, step.0, wl[current])
    requires ScannedFrom(g, r, wl + step.1, current + 1)
    requires ScannedFrom(g, r, rest, 0)
    ensures d.states <= r.states && Elems(d.connects) <= Elems(r.connects)
    ensures ScannedFrom(g, r, wl, current)
    ensures ScannedFrom(g, r, step.1 + rest, 0)
  {
    PrefixTrans(d.states, step.0.states, r.states);
    ScannedGrows(g, step.0, r, wl[current]);
    forall p | current + 1 <= p < |wl| ensures Scanned(g, r, wl[p]) {
      assert (wl + step.1)[p] == wl[p];
    }
    forall p | 0 <= p < |step.1 + rest| ensures Scanned(g, r, (step.1 + rest)[p]) {
      if p < |step.1| {
        assert (wl + step.1)[|wl| + p] == (step.1 + rest)[p];
      } else {
        assert (step.1 + rest)[p] == rest[p - |step.1|];
      }
    }
  }

  /** The sets the outer loop pushes onto `Ilist` from position `current`
      on, in order. */
  ghost function Pushed(g: Grammar, d: Automaton, wl: seq<ItemSet>, current: nat): seq<ItemSet>
    requires Inv(g, d, wl, current)
    decreases 1 + Mul(StateBound(g), ItemBound(g)) - current, 1
  {
    if current == |wl| then []
    else PushedNext(g, Step(g, d, wl, current), wl, current)
  }

  /** `Pushed` once position `current` has been processed into `step`. */
  ghost function PushedNext(g: Grammar, step: (Automaton, seq<ItemSet>), wl: seq<ItemSet>, current: nat): seq<ItemSet>
    requires Inv(g, step.0, wl + step.1, current + 1)
    requires current + 1 <= 1 + Mul(StateBound(g), ItemBound(g))
    decreases 1 + Mul(StateBound(g), ItemBound(g)) - current - 1, 2
  {
    step.1 + Pushed(g, step.0, wl + step.1, current + 1)
  }

  /** One pass pushes `step.1`, then the rest of the loop pushes the rest. */
  lemma PushedStep(g: Grammar, d: Automaton, wl: seq<ItemSet>, current: nat)
    requires Inv(g, d, wl, current) && current < |wl|
    ensures Pushed(g, d, wl, current)
         == Step(g, d, wl, current).1 + Pushed(g, Step(g, d, wl, current).0, wl + Step(g, d, wl, current).1, current + 1)
  {
    assert Pushed(g, d, wl, current) == PushedNext(g, Step(g, d, wl, current), wl, current);
  }

  /** The rest of the outer loop once position `current` has been
      processed into `step`, the grown automaton and the sets it pushed:
      `Explore` resumed at `current + 1`. Kept apart from `Explore` so that
      each of the two stays small for the verifier. */
  function ExploreNext(g: Grammar, step: (Automaton, seq<ItemSet>), wl: seq<ItemSet>, current: nat): (r: Automaton)
    requires Inv(g, step.0, wl + step.1, current + 1)
    requires current + 1 <= 1 + Mul(StateBound(g), ItemBound(g))
    ensures r == Explore(g, step.0, wl + step.1, current + 1)
    decreases 1 + Mul(StateBound(g), ItemBound(g)) - current - 1, 2
  {
    Explore(g, step.0, wl + step.1, current + 1)
  }

  /** What a good automaton says about each state, spelled out. */
  lemma StatesOkGives(g: Grammar, states: seq<ItemSet>)
    requires StatesOk(g, states)
    ensures forall i :: 0 <= i < |states| ==> WellFormed(g, states[i]) && NoDup(states[i])
    ensures forall i :: 0 <= i < |states| ==> Closed(g, Elems(states[i]))
  {
    forall i | 0 <= i < |states| ensures WellFormed(g, states[i]) && NoDup(states[i]) && Closed(g, Elems(states[i])) {
      assert GoodSet(g, states[i]);
    }
  }

  /** The automaton `init` starts from: state 0 alone, on the worklist. */
  lemma InitialInv(g: Grammar)
    requires |g.rules| > 0
    ensures Inv(g, AddState(Dfa([], []), InitialState(g), IsSimilar).0, [InitialState(g)], 0)
  {
    var I0 := InitialState(g);
    var d0 := AddState(Dfa([], []), I0, IsSimilar).0;
    assert d0.states == [I0];
    assert GoodSet(g, d0.states[0]);
    assert Represented(g, d0.states, I0);
  }

  /** The automaton `init` starts its loop from: state 0 alone. */
  function StartAutomaton(g: Grammar): (d: Automaton)
    requires |g.rules| > 0
    ensures d.states == [InitialState(g)] && d.connects == []
    ensures Inv(g, d, [InitialState(g)], 0)
  {
    InitialInv(g);
    AddState(Dfa([], []), InitialState(g), IsSimilar).0
  }

  /** Every set `init` puts on its worklist `Ilist`, in order: state 0's
      set first, then each successor the push test lets through. */
  ghost function InitWorklist(g: Grammar): (w: seq<ItemSet>)
    ensures |g.rules| > 0 ==> |w| >= 1 && w[0] == InitialState(g)
  {
    if |g.rules| == 0 then []
    else [InitialState(g)] + Pushed(g, StartAutomaton(g), [InitialState(g)], 0)
  }

  /** The automaton after `init()` on a fresh `LR`: empty for a grammar
      without rules, otherwise built from state 0 by the worklist loop,
      which expands the state of every set it ever puts on its worklist. The
      invariant `GraphOk` is spelled out by `InitStates`, `InitNotSimilar`
      and `InitTransitions`. */
  function Init(g: Grammar): (d: Automaton)
    ensures |g.rules| == 0 ==> d == Dfa([], [])
    ensures |g.rules| > 0 ==> |d.states| >= 1 && d.states[0] == Closure(g, [Item(0, 0)])
    ensures |g.rules| > 0 ==> Expanded(g, d, 0)
    ensures ScannedFrom(g, d, InitWorklist(g), 0)
    ensures GraphOk(g, d)
  {
    if |g.rules| == 0 then Dfa([], [])
    else
      var I0 := InitialState(g);
      assert AddItem([], Item(0, 0)).0 == [Item(0, 0)];
      var r := Explore(g, StartAutomaton(g), [I0], 0);
      ScannedAppend(g, r, [I0], Pushed(g, StartAutomaton(g), [I0], 0));
      assert Scanned(g, r, [I0][0]);
      ScannedIndex(g, r, I0, 0);
      r
  }

  /** Every state `init` builds is a well-formed, duplicate-free and closed
      item set. */
  lemma InitStates(g: Grammar)
    ensures forall i :: 0 <= i < |Init(g).states| ==>
              WellFormed(g, Init(g).states[i]) && NoDup(Init(g).states[i]) && Closed(g, Elems(Init(g).states[i]))
  {
    StatesOkGives(g, Init(g).states);
  }

  /** `add_state` never let two similar states into the automaton. */
  lemma InitNotSimilar(g: Grammar)
    ensures forall i, j :: 0 <= i < |Init(g).states| && 0 <= j < |Init(g).states| && i != j ==>
              !IsSimilar(Init(g).states[i], Init(g).states[j])
  {
    DistinctNotSimilar(g, Init(g).states);
  }

  /** Every recorded transition is recorded once, and leads from its origin
      to the state similar to the closure of the origin's successor on its
      token, a symbol some item of the origin has after its dot. */
  lemma InitTransitions(g: Grammar)
    ensures NoDup(Init(g).connects)
    ensures forall c :: c in Init(g).connects ==> TransitionFacts(g, Init(g).states, c)
  {
    var d := Init(g);
    forall c | c in d.connects
      ensures TransitionFacts(g, d.states, c)
    {
      assert Justified(g, d.states, c);
      JustifiedTargetSimilar(g, d.states, c);
    }
  }

  /** Distinct good states are pairwise not similar, in either order. */
  lemma DistinctNotSimilar(g: Grammar, states: seq<ItemSet>)
    requires StatesOk(g, states)
    ensures forall i, j :: 0 <= i < |states| && 0 <= j < |states| && i != j ==> !IsSimilar(states[i], states[j])
  {
    forall i, j | 0 <= i < |states| && 0 <= j < |states| && i != j
      ensures !IsSimilar(states[i], states[j])
    {
      assert GoodSet(g, states[i]) && GoodSet(g, states[j]);
      if i < j {
        assert Apart(states, i, j);
      } else {
        assert Apart(states, j, i);
      }
      SimilarIffSameItems(states[i], states[j]);
    }
  }

  /** What `init` promises about a transition `c` among `states`. */
  ghost predicate TransitionFacts(g: Grammar, states: seq<ItemSet>, c: Connection) {
    && 0 <= c.origin < |states| && 0 <= c.target < |states|
    && RulesExist(g, states[c.origin])
    && (exists it :: it in states[c.origin] && HasNext(g, it) && NextToken(g, it) == c.token)
    && IsSimilar(states[c.target], Closure(g, Goto(g, states[c.origin], c.token)))
  }

  /** A justified transition's target is similar to the closure of the
      origin's successor on its token. */
  lemma JustifiedTargetSimilar(g: Grammar, states: seq<ItemSet>, c: Connection)
    requires StatesOk(g, states) && Justified(g, states, c)
    ensures TransitionFacts(g, states, c)
  {
    assert GoodSet(g, states[c.target]);
    SimilarIffSameItems(states[c.target], Closure(g, Goto(g, states[c.origin], c.token)));
  }

  /** A good automaton is deterministic: transitions from one state on one
      symbol all lead to the same state. */
  lemma Deterministic(g: Grammar, d: Automaton)
    requires GraphOk(g, d)
    ensures forall c1, c2 :: c1 in d.connects && c2 in d.connects && c1.origin == c2.origin && c1.token == c2.token ==>
              c1.target == c2.target
  {
    forall c1, c2 | c1 in d.connects && c2 in d.connects && c1.origin == c2.origin && c1.token == c2.token
      ensures c1.target == c2.target
    {
      assert Justified(g, d.states, c1) && Justified(g, d.states, c2);
      assert Apart(d.states, c1.target, c2.target) && Apart(d.states, c2.target, c1.target);
    }
  }

  /** Every transition of a good automaton joins two of its states. */
  lemma ConnectsInRange(g: Grammar, d: Automaton)
    requires GraphOk(g, d)
    ensures forall c :: c in d.connects ==> 0 <= c.origin < |d.states| && 0 <= c.target < |d.states|
  {
    forall c | c in d.connects ensures 0 <= c.origin < |d.states| && 0 <= c.target < |d.states| {
      assert Justified(g, d.states, c);
    }
  }
}

=== FILE: collections.dfy ===
/** Facts about duplicate-free sequences and finite sets that the LR(0)
    construction leans on: item sets and transition lists are kept free of
    duplicates, and the number of automaton states is bounded by the number
    of subsets of the finite item universe. */
module Collections {

  /** No element occurs twice: there are as many distinct elements as
      positions. `NoDupIndex` and `PairwiseNoDup` show this is the same as
      no two positions holding equal elements. */
  ghost predicate NoDup<T>(s: seq<T>) {
    |Elems(s)| == |s|
  }

  /** The elements of a sequence, forgetting order and multiplicity. */
  function Elems<T>(s: seq<T>): set<T> {
    set x | x in s
  }

  function Pow2(n: nat): (r: nat)
    ensures r >= 1
  {
    if n == 0 then 1 else 2 * Pow2(n - 1)
  }

  /** `a * b` on naturals, by repeated addition, so that bounds on it are
      proved by induction rather than left to non-linear arithmetic. */
  function Mul(a: nat, b: nat): nat {
    if a == 0 then 0 else b + Mul(a - 1, b)
  }

  lemma {:induction false} MulMono(a: nat, a': nat, b: nat)
    requires a <= a'
    ensures Mul(a, b) <= Mul(a', b)
    decreases a'
  {
    if a < a' {
      MulMono(a, a' - 1, b);
    }
  }

  lemma {:induction false} MulZero(a: nat)
    ensures Mul(a, 0) == 0
  {
    if a > 0 {
      MulZero(a - 1);
    }
  }

  /** With a positive factor, the product is at least the other factor. */
  lemma {:induction false} MulAtLeast(a: nat, b: nat)
    requires b > 0
    ensures a <= Mul(a, b)
  {
    if a > 0 {
      MulAtLeast(a - 1, b);
    }
  }

  lemma SubsetCard<T>(a: set<T>, b: set<T>)
    requires a <= b
    ensures |a| <= |b|
  {
    assert b == a + (b - a);
    assert a * (b - a) == {};
  }

  /** A subset with as many elements as its superset is the superset. */
  lemma SubsetSameCard<T>(a: set<T>, b: set<T>)
    requires a <= b && |b| <= |a|
    ensures a == b
  {
    if a != b {
      var x :| x in b && x !in a;
      SubsetCard(a, b - {x});
    }
  }

  /** A prefix of a prefix is a prefix. */
  lemma PrefixTrans<T>(a: seq<T>, b: seq<T>, c: seq<T>)
    requires a <= b
    requires b <= c
    ensures a <= c
  {
    assert forall k :: 0 <= k < |a| ==> c[k] == b[k] == a[k];
  }

  /** A sequence has at most as many distinct elements as positions. */
  lemma {:induction false} ElemsCard<T>(s: seq<T>)
    ensures |Elems(s)| <= |s|
  {
    if s != [] {
      var t := s[..|s| - 1];
      assert s == t + [s[|s| - 1]];
      ElemsSnoc(t, s[|s| - 1]);
      ElemsCard(t);
    }
  }

  /** Appending `x` adds `x` to the elements, and one more distinct element
      when `x` was not there. */
  lemma ElemsSnoc<T>(s: seq<T>, x: T)
    ensures Elems(s + [x]) == Elems(s) + {x}
    ensures x !in s ==> |Elems(s + [x])| == |Elems(s)| + 1
  {
    assert Elems(s + [x]) == Elems(s) + {x};
  }

  /** The elements of a concatenation. */
  lemma ElemsAppend<T>(a: seq<T>, b: seq<T>)
    ensures Elems(a + b) == Elems(a) + Elems(b)
  {
    assert forall x :: x in a + b <==> x in a || x in b;
  }

  /** Both halves of a duplicate-free concatenation are duplicate-free and
      share no element. */
  lemma NoDupSplit<T>(a: seq<T>, b: seq<T>)
    requires NoDup(a + b)
    ensures NoDup(a) && NoDup(b) && Elems(a) * Elems(b) == {}
  {
    ElemsAppend(a, b);
    ElemsCard(a);
    ElemsCard(b);
    assert |Elems(a) + Elems(b)| + |Elems(a) * Elems(b)| == |Elems(a)| + |Elems(b)|;
  }

  /** Two equal elements at different positions leave fewer distinct
      elements than positions. */
  lemma DupShrinks<T>(s: seq<T>, i: nat, j: nat)
    requires i < j < |s|
    ensures s[i] == s[j] ==> |Elems(s)| < |s|
  {
    if s[i] == s[j] {
      var t := s[..j] + s[j + 1..];
      assert s == s[..j] + [s[j]] + s[j + 1..];
      assert s[i] == t[i];
      forall x | x in s ensures x in t {
        var k :| 0 <= k < |s| && s[k] == x;
        if k < j {
          assert t[k] == x;
        } else if k > j {
          assert t[k - 1] == x;
        }
      }
      forall x | x in t ensures x in s {
      }
      assert Elems(t) == Elems(s);
      ElemsCard(t);
    }
  }

  /** In a duplicate-free sequence, different positions hold different
      elements. */
  lemma NoDupIndex<T>(s: seq<T>, i: nat, j: nat)
    requires NoDup(s) && i < j < |s|
    ensures s[i] != s[j]
  {
    DupShrinks(s, i, j);
  }

  /** Conversely, a sequence whose positions hold pairwise different
      elements is duplicate-free. */
  lemma {:induction false} PairwiseNoDup<T>(s: seq<T>)
    requires forall i, j :: 0 <= i < j < |s| ==> s[i] != s[j]
    ensures NoDup(s)
  {
    if s != [] {
      var t, x := s[..|s| - 1], s[|s| - 1];
      assert s == t + [x];
      assert forall k :: 0 <= k < |t| ==> t[k] == s[k] != x;
      ElemsSnoc(t, x);
      PairwiseNoDup(t);
    }
  }

  /** A duplicate-free sequence drawn from `u` is no longer than `u` is large. */
  lemma NoDupLength<T>(s: seq<T>, u: set<T>)
    requires NoDup(s) && Elems(s) <= u
    ensures |s| <= |u|
  {
    SubsetCard(Elems(s), u);
  }

  /** Two duplicate-free sequences with the same length, one of whose
      elements all occur in the other, hold the same elements. */
  lemma NoDupSameElems<T>(a: seq<T>, b: seq<T>)
    requires NoDup(a) && NoDup(b) && |a| == |b|
    requires Elems(b) <= Elems(a)
    ensures Elems(a) == Elems(b)
  {
    SubsetSameCard(Elems(b), Elems(a));
  }

  /** Removing `x` from each member of a family whose members all hold `x`
      loses no member. */
  lemma {:induction false} DropCommonCard<T>(f: set<set<T>>, x: T)
    requires forall s :: s in f ==> x in s
    ensures |set s | s in f :: s - {x}| == |f|
    decreases |f|
  {
    if f != {} {
      var s0 :| s0 in f;
      var f' := f - {s0};
      DropCommonCard(f', x);
      var img := set s | s in f :: s - {x};
      var img' := set s | s in f' :: s - {x};
      assert img == img' + {s0 - {x}};
      forall s1 | s1 in f' ensures s1 - {x} != s0 - {x} {
        assert s1 == (s1 - {x}) + {x};
        assert s0 == (s0 - {x}) + {x};
      }
    }
  }

  /** A family of subsets of `u` has at most 2^|u| members. */
  lemma {:induction false} FamilyBound<T>(f: set<set<T>>, u: set<T>)
    requires forall s :: s in f ==> s <= u
    ensures |f| <= Pow2(|u|)
    decreases |u|
  {
    if u == {} {
      assert f <= {{}} by {
        forall s | s in f ensures s == {} {
          assert s <= u;
        }
      }
      SubsetCard(f, {{}});
    } else {
      var x :| x in u;
      var u' := u - {x};
      var without := set s | s in f && x !in s;
      var with := set s | s in f && x in s;
      var dropped := set s | s in with :: s - {x};
      assert f == without + with;
      assert without * with == {};
      FamilyBound(without, u');
      DropCommonCard(with, x);
      FamilyBound(dropped, u');
    }
  }

  /** The keys of the members of a sequence. */
  function Keys<T, K>(s: seq<T>, key: T -> K): set<K> {
    set i | 0 <= i < |s| :: key(s[i])
  }

  /** Members of a sequence that are told apart by `key` give as many keys
      as there are members. */
  lemma {:induction false} DistinctKeysCard<T, K>(s: seq<T>, key: T -> K)
    requires forall i, j :: 0 <= i < j < |s| ==> key(s[i]) != key(s[j])
    ensures |Keys(s, key)| == |s|
  {
    if s != [] {
      var t := s[..|s| - 1];
      DistinctKeysCard(t, key);
      var ks := Keys(s, key);
      var kt := Keys(t, key);
      assert ks == kt + {key(s[|s| - 1])};
      assert forall i :: 0 <= i < |t| ==> key(t[i]) == key(s[i]) != key(s[|s| - 1]);
    }
  }
}

=== FILE: complete.dfy ===
/** The construction `init` evidently intends: every state the automaton
    receives is expanded. The worklist is the state list itself, visited
    in index order, so the position being processed is always the index of
    the state being processed and a state appended by `add_state` is always
    reached later. The result is the complete LR(0) automaton: every item
    with a symbol after the dot has its transition. */
module CompleteAutomaton {
  import opened Tokens
  import opened Grammars
  import opened Items
  import opened Collections
  import opened Dfas
  import opened Lr
  import opened LrAutomaton

  /** Every state is expanded. */
  ghost predicate Complete(g: Grammar, d: Automaton) {
    forall p {:trigger Expanded(g, d, p)} :: 0 <= p < |d.states| ==> Expanded(g, d, p)
  }

  /** What the loop keeps: a good automaton starting with state 0 whose
      states before `current` are expanded. */
  ghost predicate FixInv(g: Grammar, d: Automaton, current: nat) {
    && |g.rules| > 0
    && GraphOk(g, d)
    && |d.states| >= 1 && d.states[0] == InitialState(g)
    && current <= |d.states|
    && forall p {:trigger Expanded(g, d, p)} :: 0 <= p < current ==> Expanded(g, d, p)
  }

  /** The item loop run on state `current` expands it. */
  lemma ScanExpands(g: Grammar, d: Automaton, current: nat)
    requires GraphOk(g, d) && current < |d.states|
    ensures GoodSet(g, d.states[current])
    ensures Expanded(g, ScanItems(g, d.states[current], current, current, 0, d).0, current)
  {
    var I := d.states[current];
    assert GoodSet(g, I);
    var r := ScanItems(g, I, current, current, 0, d).0;
    assert r.states[current] == I;
    forall it | it in I && HasNext(g, it)
      ensures exists t :: Connection(current, t, NextToken(g, it)) in r.connects
    {
      var k :| 0 <= k < |I| && I[k] == it;
    }
  }

  /** States expanded before a scan stay expanded after it. */
  lemma ExpandedBelowGrows(g: Grammar, d: Automaton, r: Automaton, current: nat)
    requires d.states <= r.states && Elems(d.connects) <= Elems(r.connects)
    requires forall p {:trigger Expanded(g, d, p)} :: 0 <= p < current ==> Expanded(g, d, p)
    requires Expanded(g, r, current)
    ensures forall p {:trigger Expanded(g, r, p)} :: 0 <= p < current + 1 ==> Expanded(g, r, p)
  {
    forall p | 0 <= p < current + 1 ensures Expanded(g, r, p) {
      if p < current {
        ExpandedGrows(g, d, r, p);
      }
    }
  }

  /** Scanning state `current` moves the invariant on to `current + 1`. */
  lemma ScanKeepsFixInv(g: Grammar, d: Automaton, current: nat)
    requires FixInv(g, d, current) && current < |d.states|
    ensures GoodSet(g, d.states[current])
    ensures FixInv(g, ScanItems(g, d.states[current], current, current, 0, d).0, current + 1)
  {
    ScanExpands(g, d, current);
    var r := ScanItems(g, d.states[current], current, current, 0, d).0;
    ExpandedBelowGrows(g, d, r, current);
    assert r.states[0] == d.states[0];
  }

  /** One iteration: state `current` is scanned as the origin of its own
      transitions. Every state below `current + 1` is then expanded. */
  function ExpandOne(g: Grammar, d: Automaton, current: nat): (r: Automaton)
    requires FixInv(g, d, current) && current < |d.states|
    ensures FixInv(g, r, current + 1)
    ensures current + 1 <= StateBound(g)
  {
    ScanKeepsFixInv(g, d, current);
    var r := ScanItems(g, d.states[current], current, current, 0, d).0;
    StatesBounded(g, r.states);
    r
  }

  /** The corrected outer loop from state index `current`. */
  function Expand(g: Grammar, d: Automaton, current: nat): (r: Automaton)
    requires FixInv(g, d, current)
    ensures GraphOk(g, r) && Complete(g, r)
    ensures |r.states| >= 1 && r.states[0] == InitialState(g)
    decreases StateBound(g) - current, 1
  {
    if current == |d.states| then d
    else ExpandNext(g, ExpandOne(g, d, current), current)
  }

  /** The rest of the corrected loop once state `current` is expanded. */
  function ExpandNext(g: Grammar, d: Automaton, current: nat): (r: Automaton)
    requires FixInv(g, d, current + 1) && current + 1 <= StateBound(g)
    ensures GraphOk(g, r) && Complete(g, r)
    ensures |r.states| >= 1 && r.states[0] == InitialState(g)
    decreases StateBound(g) - current - 1, 2
  {
    Expand(g, d, current + 1)
  }

  /** `init` with every created state expanded: empty for a grammar
      without rules, otherwise state 0 and everything reachable from it. */
  function InitFixed(g: Grammar): (d: Automaton)
    ensures |g.rules| == 0 ==> d == Dfa([], [])
    ensures |g.rules| > 0 ==> |d.states| >= 1 && d.states[0] == Closure(g, [Item(0, 0)])
    ensures GraphOk(g, d) && Complete(g, d)
  {
    if |g.rules| == 0 then Dfa([], [])
    else
      var d0 := AddState(Dfa([], []), InitialState(g), IsSimilar).0;
      InitialInv(g);
      assert AddItem([], Item(0, 0)).0 == [Item(0, 0)];
      Expand(g, d0, 0)
  }

  /** State `p` has a transition on `x`, and it is one `init` promises. */
  ghost predicate GoesOn(g: Grammar, d: Automaton, p: nat, x: Token) {
    exists t :: Connection(p, t, x) in d.connects && TransitionFacts(g, d.states, Connection(p, t, x))
  }

  /** In a good, complete automaton every item with a symbol after the dot
      has its transition. */
  lemma CompleteGoesOn(g: Grammar, d: Automaton, p: nat, it: Item)
    requires GraphOk(g, d) && Complete(g, d)
    requires p < |d.states| && it in d.states[p] && HasNext(g, it)
    ensures GoesOn(g, d, p, NextToken(g, it))
  {
    assert Expanded(g, d, p);
    var t :| Connection(p, t, NextToken(g, it)) in d.connects;
    assert Justified(g, d.states, Connection(p, t, NextToken(g, it)));
    JustifiedTargetSimilar(g, d.states, Connection(p, t, NextToken(g, it)));
  }

  /** Each state of the corrected automaton has, for the symbol after the
      dot of each of its items, a transition to the state similar to the
      closure of its successor on that symbol. */
  lemma InitFixedTransitions(g: Grammar)
    ensures forall p, it :: 0 <= p < |InitFixed(g).states| && it in InitFixed(g).states[p] && HasNext(g, it) ==>
              GoesOn(g, InitFixed(g), p, NextToken(g, it))
  {
    var d := InitFixed(g);
    forall p, it | 0 <= p < |d.states| && it in d.states[p] && HasNext(g, it)
      ensures GoesOn(g, d, p, NextToken(g, it))
    {
      CompleteGoesOn(g, d, p, it);
    }
  }

  /** Conversely, every transition of the corrected automaton is one of
      those, recorded once. */
  lemma InitFixedOnlyTransitions(g: Grammar)
    ensures NoDup(InitFixed(g).connects)
    ensures forall c :: c in InitFixed(g).connects ==> TransitionFacts(g, InitFixed(g).states, c)
  {
    var d := InitFixed(g);
    forall c | c in d.connects
      ensures TransitionFacts(g, d.states, c)
    {
      assert Justified(g, d.states, c);
      JustifiedTargetSimilar(g, d.states, c);
    }
  }
}

=== FILE: dfa.dfy ===
/** The state graph (`DFA<T>` in index.ts): a list of states whose indices
    never change, and a list of labelled transitions. It is generic over the
    state type; `sim` is the state type's `is_similar`, called as
    `sim(stored, candidate)` just as the source calls
    `states[index].is_similar(state)`. */
module Dfas {
  import opened Tokens
  import opened Collections

  /** `ConnectState`: a transition from state `origin` to state `target` on
      `token`. Indices are plain numbers, as in the source. */
  datatype Connection = Connection(origin: int, target: int, token: Token)

  datatype Dfa<T> = Dfa(states: seq<T>, connects: seq<Connection>)

  /** The scan of `index_state` from position `i`. */
  function IndexFrom<T>(states: seq<T>, s: T, sim: (T, T) -> bool, i: nat): (r: int)
    requires i <= |states|
    ensures -1 <= r < |states|
    ensures r == -1 <==> forall k :: i <= k < |states| ==> !sim(states[k], s)
    ensures r >= 0 ==> i <= r && sim(states[r], s)
    ensures r >= 0 ==> forall k :: i <= k < r ==> !sim(states[k], s)
    decreases |states| - i
  {
    if i == |states| then -1
    else if sim(states[i], s) then i
    else IndexFrom(states, s, sim, i + 1)
  }

  /** `index_state(state)`: the first index whose state is similar to `s`,
      or -1 when there is none. */
  function IndexState<T>(d: Dfa<T>, s: T, sim: (T, T) -> bool): (r: int)
    ensures -1 <= r < |d.states|
    ensures r == -1 <==> forall k :: 0 <= k < |d.states| ==> !sim(d.states[k], s)
    ensures r >= 0 ==> sim(d.states[r], s) && forall k :: 0 <= k < r ==> !sim(d.states[k], s)
  {
    IndexFrom(d.states, s, sim, 0)
  }

  /** `add_state(state)`: the index of the first similar state, leaving the
      graph alone; otherwise `s` is appended and its new index returned.
      Existing indices never move. */
  function AddState<T>(d: Dfa<T>, s: T, sim: (T, T) -> bool): (res: (Dfa<T>, nat))
    ensures res.0.connects == d.connects
    ensures d.states <= res.0.states
    ensures res.1 < |res.0.states|
    ensures (exists k :: 0 <= k < |d.states| && sim(d.states[k], s)) ==>
              && res.0 == d
              && sim(d.states[res.1], s)
              && forall k :: 0 <= k < res.1 ==> !sim(d.states[k], s)
    ensures (forall k :: 0 <= k < |d.states| ==> !sim(d.states[k], s)) ==>
              res.0.states == d.states + [s] && res.1 == |d.states|
  {
    var index := IndexState(d, s, sim);
    if index >= 0 then (d, index)
    else (d.(states := d.states + [s]), |d.states|)
  }

  /** The index `add_state` returns is the one `index_state` finds in the
      graph it returns, when `s` is similar to itself. */
  lemma AddStateIndex<T>(d: Dfa<T>, s: T, sim: (T, T) -> bool)
    requires sim(s, s)
    ensures AddState(d, s, sim).1 as int == IndexState(AddState(d, s, sim).0, s, sim)
  {
    var r := AddState(d, s, sim);
    if exists k :: 0 <= k < |d.states| && sim(d.states[k], s) {
      assert r.0 == d;
    } else {
      assert r.0.states[|d.states|] == s;
    }
  }

  /** The scan of `connect`: is the transition already recorded? The source
      compares the token by reference (`===`); the model compares it as a
      value, so two equal tokens built separately, two transitions in the
      source, are one transition here. */
  function HasConnection(cs: seq<Connection>, origin: int, target: int, token: Token): (b: bool)
    ensures b <==> Connection(origin, target, token) in cs
  {
    if cs == [] then false
    else if cs[0].origin == origin && cs[0].target == target && cs[0].token == token then true
    else HasConnection(cs[1..], origin, target, token)
  }

  /** `connect(origin, target, token)`: records the transition unless it is
      already there; the list never holds a transition twice. */
  function Connect<T>(d: Dfa<T>, origin: int, target: int, token: Token): (r: Dfa<T>)
    ensures r.states == d.states
    ensures Elems(r.connects) == Elems(d.connects) + {Connection(origin, target, token)}
    ensures |d.connects| <= |r.connects| <= |d.connects| + 1
    ensures d.connects <= r.connects
    ensures Connection(origin, target, token) in d.connects ==> r == d
    ensures NoDup(d.connects) ==> NoDup(r.connects)
  {
    if HasConnection(d.connects, origin, target, token) then d
    else
      ElemsSnoc(d.connects, Connection(origin, target, token));
      d.(connects := d.connects + [Connection(origin, target, token)])
  }
}

=== FILE: grammar.dfy ===
/** The rule store (`Gramer` in index.ts): the declared non-terminals and
    terminals, and an ordered list of rules whose positions are the rule
    numbers that items refer to. */
module Grammars {
  import opened Tokens
  import opened Collections

  /** `lhs -> rhs`; the source types `lhs` as a non-terminal, which no
      operation modelled here inspects (left-hand sides are matched by
      name only). */
  datatype Rule = Rule(lhs: Token, rhs: seq<Token>)

  datatype Grammar = Grammar(vars: seq<Token>, terminals: seq<Token>, rules: seq<Rule>)

  /** A fresh grammar over the given symbols, with no rules. */
  function NewGrammar(vars: seq<Token>, terminals: seq<Token>): (g: Grammar)
    ensures g.vars == vars && g.terminals == terminals && g.rules == []
  {
    Grammar(vars, terminals, [])
  }

  // ---------------------------------------------------------------------
  // add_rule as written

  /** The condition under which an existing rule makes `add_rule` refuse a
      new one: the same left-hand name, a right-hand side of the same
      length, and at least ONE position where both right-hand sides hold
      equal tokens (kind and name). */
  ghost predicate Blocks(existing: Rule, lhs: Token, rhs: seq<Token>) {
    && existing.lhs.value == lhs.value
    && |existing.rhs| == |rhs|
    && exists k :: 0 <= k < |rhs| && existing.rhs[k] == rhs[k]
  }

  /** Some rule of `rules` blocks `lhs -> rhs`. */
  ghost predicate Blocked(rules: seq<Rule>, lhs: Token, rhs: seq<Token>) {
    exists j :: 0 <= j < |rules| && Blocks(rules[j], lhs, rhs)
  }

  /** The inner loop of `add_rule`: scanning positions from `i`, does any
      position hold equal tokens? */
  function SharesPosition(a: seq<Token>, b: seq<Token>, i: nat): (r: bool)
    requires |a| == |b| && i <= |a|
    ensures r <==> exists k :: i <= k < |a| && a[k] == b[k]
    decreases |a| - i
  {
    if i == |a| then false
    else if a[i].kind == b[i].kind && a[i].value == b[i].value then true
    else SharesPosition(a, b, i + 1)
  }

  /** The outer loop of `add_rule` over the existing rules. */
  function Refused(rules: seq<Rule>, lhs: Token, rhs: seq<Token>): (r: bool)
    ensures r <==> exists j :: 0 <= j < |rules| && Blocks(rules[j], lhs, rhs)
  {
    if rules == [] then false
    else if rules[0].lhs.value == lhs.value && |rules[0].rhs| == |rhs| && SharesPosition(rules[0].rhs, rhs, 0) then true
    else
      assert forall j :: 1 <= j < |rules| ==> rules[j] == rules[1..][j - 1];
      Refused(rules[1..], lhs, rhs)
  }

  /** `add_rule(lhs, ...rhs)`: the new grammar and whether the rule was
      appended. */
  function AddRule(g: Grammar, lhs: Token, rhs: seq<Token>): (res: (Grammar, bool))
    ensures !res.1 <==> Blocked(g.rules, lhs, rhs)
    ensures !res.1 ==> res.0 == g
    ensures res.1 ==> res.0 == g.(rules := g.rules + [Rule(lhs, rhs)])
  {
    if Refused(g.rules, lhs, rhs) then (g, false)
    else (g.(rules := g.rules + [Rule(lhs, rhs)]), true)
  }

  /** An exact copy of an existing non-empty rule is refused. */
  lemma AddRuleRefusesCopy(g: Grammar, j: nat)
    requires j < |g.rules| && |g.rules[j].rhs| > 0
    ensures AddRule(g, g.rules[j].lhs, g.rules[j].rhs) == (g, false)
  {
    assert Blocks(g.rules[j], g.rules[j].lhs, g.rules[j].rhs) by {
      assert g.rules[j].rhs[0] == g.rules[j].rhs[0];
    }
  }

  /** A rule with an empty right-hand side is always appended, even when
      the grammar already holds it: the position loop has nothing to
      compare. */
  lemma AddRuleAcceptsEmpty(g: Grammar, lhs: Token)
    ensures AddRule(g, lhs, []) == (g.(rules := g.rules + [Rule(lhs, [])]), true)
  {
  }

  /** The rules of `rs` that offering them one by one to a store holding
      `rules` keeps: each rule that no rule present at its turn blocks,
      in the order offered. */
  ghost function Accepted(rules: seq<Rule>, rs: seq<Rule>): seq<Rule>
    decreases |rs|
  {
    if rs == [] then []
    else if Blocked(rules, rs[0].lhs, rs[0].rhs) then Accepted(rules, rs[1..])
    else [rs[0]] + Accepted(rules + [rs[0]], rs[1..])
  }

  /** Every kept rule is one of the offered rules, so at most `|rs|` are
      kept. */
  lemma {:induction false} AcceptedOffered(rules: seq<Rule>, rs: seq<Rule>)
    ensures |Accepted(rules, rs)| <= |rs|
    ensures forall r :: r in Accepted(rules, rs) ==> r in rs
    decreases |rs|
  {
    if rs != [] {
      AcceptedOffered(rules, rs[1..]);
      AcceptedOffered(rules + [rs[0]], rs[1..]);
    }
  }

  /** A rule blocked by a list is blocked by any extension of it. */
  lemma BlockedGrows(rules: seq<Rule>, rules': seq<Rule>, lhs: Token, rhs: seq<Token>)
    requires rules <= rules' && Blocked(rules, lhs, rhs)
    ensures Blocked(rules', lhs, rhs)
  {
    var j :| 0 <= j < |rules| && Blocks(rules[j], lhs, rhs);
    assert rules'[j] == rules[j];
  }

  /** The rules `rs[0]` leaves in place for the rest of `rs`: the same list
      when it is blocked, the list with it appended otherwise. */
  ghost function AfterHead(rules: seq<Rule>, rs: seq<Rule>): seq<Rule>
    requires rs != []
  {
    if Blocked(rules, rs[0].lhs, rs[0].rhs) then rules else rules + [rs[0]]
  }

  /** One step of `Accepted`: the final list seen from after the first offer. */
  lemma AcceptedStep(rules: seq<Rule>, rs: seq<Rule>)
    requires rs != []
    ensures rules + Accepted(rules, rs) == AfterHead(rules, rs) + Accepted(AfterHead(rules, rs), rs[1..])
  {
  }

  /** The rule `r` is in `rules`, or some rule of `rules` blocks it. */
  ghost predicate Explained(rules: seq<Rule>, r: Rule) {
    r in rules || Blocked(rules, r.lhs, r.rhs)
  }

  /** The first offered rule is kept or blocked in the final list. */
  lemma HeadExplained(rules: seq<Rule>, rs: seq<Rule>)
    requires rs != []
    ensures Explained(rules + Accepted(rules, rs), rs[0])
  {
    var all := rules + Accepted(rules, rs);
    AcceptedStep(rules, rs);
    if Blocked(rules, rs[0].lhs, rs[0].rhs) {
      BlockedGrows(rules, all, rs[0].lhs, rs[0].rhs);
    } else {
      assert all[|rules|] == rs[0];
    }
  }

  /** No offered rule is dropped without a reason: each one ends up in the
      store, or some rule of the final store blocks it. */
  lemma {:induction false} AcceptedExplains(rules: seq<Rule>, rs: seq<Rule>)
    ensures forall i :: 0 <= i < |rs| ==> Explained(rules + Accepted(rules, rs), rs[i])
    decreases |rs|
  {
    if rs != [] {
      var all := rules + Accepted(rules, rs);
      AcceptedStep(rules, rs);
      AcceptedExplains(AfterHead(rules, rs), rs[1..]);
      HeadExplained(rules, rs);
      forall i | 1 <= i < |rs|
        ensures Explained(all, rs[i])
      {
        assert rs[i] == rs[1..][i - 1];
      }
    }
  }

  /** `concat_rules(rules)`: offers each rule in order to `add_rule` and
      counts the ones appended. The rules appended are exactly those
      `Accepted` keeps, and the count is their number. */
  function ConcatRules(g: Grammar, rs: seq<Rule>): (res: (Grammar, nat))
    ensures res.0.vars == g.vars && res.0.terminals == g.terminals
    ensures res.0.rules == g.rules + Accepted(g.rules, rs) && res.1 == |Accepted(g.rules, rs)|
    decreases |rs|
  {
    if rs == [] then (g, 0)
    else
      var (g1, added) := AddRule(g, rs[0].lhs, rs[0].rhs);
      var (g2, count) := ConcatRules(g1, rs[1..]);
      if added then
        assert Accepted(g.rules, rs) == [rs[0]] + Accepted(g1.rules, rs[1..]);
        assert g.rules + ([rs[0]] + Accepted(g1.rules, rs[1..])) == g1.rules + Accepted(g1.rules, rs[1..]);
        (g2, count + 1)
      else
        (g2, count)
  }

  /** What `concat_rules` keeps: old rules first, then at most one rule per
      offered rule, each taken from the offered list; and each offered rule
      is in the store afterwards or blocked by a rule that is. */
  lemma ConcatRulesKeepsOrBlocks(g: Grammar, rs: seq<Rule>)
    ensures var res := ConcatRules(g, rs);
      && g.rules <= res.0.rules
      && res.1 <= |rs|
      && (forall k :: |g.rules| <= k < |res.0.rules| ==> res.0.rules[k] in rs)
      && forall i :: 0 <= i < |rs| ==> rs[i] in res.0.rules || Blocked(res.0.rules, rs[i].lhs, rs[i].rhs)
  {
    var res := ConcatRules(g, rs);
    AcceptedOffered(g.rules, rs);
    AcceptedExplains(g.rules, rs);
    assert forall i :: 0 <= i < |rs| ==> Explained(res.0.rules, rs[i]);
    forall k | |g.rules| <= k < |res.0.rules| ensures res.0.rules[k] in rs {
      assert res.0.rules[k] == Accepted(g.rules, rs)[k - |g.rules|];
    }
  }

  // ---------------------------------------------------------------------
  // The duplicate test the rule store is meant to apply

  /** Same left-hand name and the same right-hand side, token by token. */
  predicate SameRule(a: Rule, b: Rule) {
    a.lhs.value == b.lhs.value && a.rhs == b.rhs
  }

  /** No two rules of the list are the same rule. */
  ghost predicate NoRepeatedRule(rules: seq<Rule>) {
    forall i, j :: 0 <= i < j < |rules| ==> !SameRule(rules[i], rules[j])
  }

  /** `add_rule` with the duplicate test evidently intended: refuse exactly
      when the whole rule is already present. */
  function AddRuleExact(g: Grammar, lhs: Token, rhs: seq<Token>): (res: (Grammar, bool))
    ensures !res.1 <==> exists j :: 0 <= j < |g.rules| && SameRule(g.rules[j], Rule(lhs, rhs))
    ensures !res.1 ==> res.0 == g
    ensures res.1 ==> res.0 == g.(rules := g.rules + [Rule(lhs, rhs)])
    ensures NoRepeatedRule(g.rules) ==> NoRepeatedRule(res.0.rules)
  {
    if exists j :: 0 <= j < |g.rules| && SameRule(g.rules[j], Rule(lhs, rhs)) then (g, false)
    else (g.(rules := g.rules + [Rule(lhs, rhs)]), true)
  }

  /** As written, `add_rule` refuses `S -> a c` once `S -> a b` is stored,
      although the two rules differ. */
  lemma AddRuleRefusesDistinctRule()
    ensures
      var s, a, b, c := Token(NonTerminal, "S"), Token(Terminal, "a"), Token(Terminal, "b"), Token(Terminal, "c");
      var g := Grammar([s], [a, b, c], [Rule(s, [a, b])]);
      && !SameRule(g.rules[0], Rule(s, [a, c]))
      && AddRule(g, s, [a, c]) == (g, false)
      && AddRuleExact(g, s, [a, c]).1
  {
    var s, a, b, c := Token(NonTerminal, "S"), Token(Terminal, "a"), Token(Terminal, "b"), Token(Terminal, "c");
    var g := Grammar([s], [a, b, c], [Rule(s, [a, b])]);
    assert Blocks(g.rules[0], s, [a, c]) by {
      assert g.rules[0].rhs[0] == [a, c][0];
    }
    assert [a, b][1] != [a, c][1];
  }

  /** As written, `add_rule` stores `S -> ε` twice. */
  lemma AddRuleRepeatsEmptyRule()
    ensures
      var s := Token(NonTerminal, "S");
      var g := Grammar([s], [], [Rule(s, [])]);
      && AddRule(g, s, []).1
      && !NoRepeatedRule(AddRule(g, s, []).0.rules)
      && !AddRuleExact(g, s, []).1
  {
    var s := Token(NonTerminal, "S");
    var g := Grammar([s], [], [Rule(s, [])]);
    var rules := AddRule(g, s, []).0.rules;
    assert rules == [Rule(s, []), Rule(s, [])];
    assert SameRule(rules[0], rules[1]);
  }
}

=== FILE: items.dfy ===
/** LR(0) items and item sets (`Item` and `ItemSet` in index.ts). An item
    set is the list `items` of the source class: insertion order is kept,
    and `add_item` keeps it free of duplicates. */
module Items {
  import opened Collections

  /** Rule `ruleNumber` with the dot before position `dotPos` of its
      right-hand side. */
  datatype Item = Item(ruleNumber: nat, dotPos: nat)

  type ItemSet = seq<Item>

  /** `exsist(item)`: scans the list for an item with the same dot position
      and rule number. */
  function Exists(items: ItemSet, it: Item): (b: bool)
    ensures b <==> it in items
  {
    if items == [] then false
    else if items[0].dotPos == it.dotPos && items[0].ruleNumber == it.ruleNumber then true
    else Exists(items[1..], it)
  }

  /** `add_item(item)`: the updated list and whether it grew. */
  function AddItem(items: ItemSet, it: Item): (res: (ItemSet, bool))
    ensures res.1 <==> it !in items
    ensures !res.1 ==> res.0 == items
    ensures res.1 ==> res.0 == items + [it]
    ensures forall y :: y in res.0 <==> y in items || y == it
    ensures Elems(res.0) == Elems(items) + {it}
    ensures items <= res.0 && |res.0| <= |items| + 1
    ensures NoDup(items) ==> NoDup(res.0)
  {
    if Exists(items, it) then (items, false)
    else
      ElemsSnoc(items, it);
      (items + [it], true)
  }

  /** `concat(set)`: offers every item of `other`, in order, to `add_item`. */
  function Concat(items: ItemSet, other: ItemSet): (r: ItemSet)
    ensures Elems(r) == Elems(items) + Elems(other)
    ensures items <= r
    ensures NoDup(items) ==> NoDup(r)
    decreases |other|
  {
    if other == [] then items
    else
      var next := AddItem(items, other[0]).0;
      assert Elems(other) == {other[0]} + Elems(other[1..]);
      Concat(next, other[1..])
  }

  /** The loop of `is_similar`: does every item of `other` occur in
      `items`? */
  function ContainsAll(items: ItemSet, other: ItemSet): (b: bool)
    ensures b <==> Elems(other) <= Elems(items)
  {
    if other == [] then true
    else if !Exists(items, other[0]) then
      assert other[0] in Elems(other);
      false
    else
      assert Elems(other) == {other[0]} + Elems(other[1..]);
      ContainsAll(items, other[1..])
  }

  /** `this.is_similar(other)`: equal lengths and every item of `other` in
      `this`. */
  function IsSimilar(items: ItemSet, other: ItemSet): (b: bool)
    ensures b <==> |items| == |other| && Elems(other) <= Elems(items)
  {
    |items| == |other| && ContainsAll(items, other)
  }

  /** On duplicate-free lists, similarity is equality of the item sets. */
  lemma SimilarIffSameItems(a: ItemSet, b: ItemSet)
    requires NoDup(a) && NoDup(b)
    ensures IsSimilar(a, b) <==> Elems(a) == Elems(b)
  {
    if IsSimilar(a, b) {
      NoDupSameElems(a, b);
    }
  }

  /** On duplicate-free lists, similarity is symmetric. */
  lemma SimilarSymmetric(a: ItemSet, b: ItemSet)
    requires NoDup(a) && NoDup(b)
    ensures IsSimilar(a, b) == IsSimilar(b, a)
  {
    SimilarIffSameItems(a, b);
    SimilarIffSameItems(b, a);
  }

  /** On duplicate-free lists, similarity does not depend on the order in
      which the items were inserted. */
  lemma SimilarIgnoresOrder(a: ItemSet, a': ItemSet, b: ItemSet)
    requires NoDup(a) && NoDup(a') && NoDup(b)
    requires Elems(a) == Elems(a')
    ensures IsSimilar(a, b) == IsSimilar(a', b)
  {
    SimilarIffSameItems(a, b);
    SimilarIffSameItems(a', b);
  }

  /** Concatenating onto an empty set copies a duplicate-free list
      unchanged. */
  lemma {:induction false} ConcatCopies(items: ItemSet, other: ItemSet)
    requires NoDup(items + other)
    ensures Concat(items, other) == items + other
    decreases |other|
  {
    if other != [] {
      NoDupSplit(items, other);
      assert other[0] in Elems(other);
      assert items + other == (items + [other[0]]) + other[1..];
      ConcatCopies(items + [other[0]], other[1..]);
    }
  }
}

=== FILE: lost.dfy ===
/** What the push test of `init` as written loses. `next_index > current`
    compares a state index with a worklist position; the worklist can run
    ahead of the state list, because a set is pushed again whenever an
    existing state with a larger index is reached. A state appended while
    the position is already at or past its index is not pushed, and no
    later iteration scans it either: in the automaton `init` returns it
    has no transition at all, whatever items it holds. */
module LostStates {
  import opened Tokens
  import opened Grammars
  import opened Items
  import opened Collections
  import opened Dfas
  import opened Lr
  import opened LrAutomaton
  import opened CompleteAutomaton

  /** No transition of `cs` leaves state `n`. */
  ghost predicate NoneFrom(cs: seq<Connection>, n: int) {
    forall c :: c in cs ==> c.origin != n
  }

  /** The set at position `p` of `wl`, if any, does not hold `items`. */
  ghost predicate AvoidsAt(wl: seq<ItemSet>, p: nat, items: set<Item>) {
    p < |wl| ==> Elems(wl[p]) != items
  }

  /** No set of `wl` from position `from` on holds `items`. The quantifier
      fires only on an explicit `AvoidsAt` term. */
  ghost predicate Avoids(wl: seq<ItemSet>, from: nat, items: set<Item>) {
    forall p: nat {:trigger AvoidsAt(wl, p, items)} :: from <= p ==> AvoidsAt(wl, p, items)
  }

  /** State `n` lies at or before position `current`, has no transition,
      and no set still to be scanned holds its items. */
  ghost predicate Skipped(d: Automaton, wl: seq<ItemSet>, current: nat, n: nat) {
    && n < |d.states| && n <= current
    && NoneFrom(d.connects, n)
    && Avoids(wl, current, Elems(d.states[n]))
  }

  /** What one iteration of the outer loop does, in the terms needed here:
      it keeps the old states, adds transitions only from a state holding
      the items of the scanned set, and pushes only sets of states after
      `current`. */
  lemma StepFacts(g: Grammar, d: Automaton, wl: seq<ItemSet>, current: nat)
    requires Inv(g, d, wl, current) && current < |wl|
    ensures d.states <= Step(g, d, wl, current).0.states
    ensures Distinct(Step(g, d, wl, current).0.states)
    ensures exists ci :: 0 <= ci < |d.states| && Elems(d.states[ci]) == Elems(wl[current])
              && OnlyNewFrom(d.connects, Step(g, d, wl, current).0.connects, ci)
    ensures AllPushedAfter(Step(g, d, wl, current).0.states, Step(g, d, wl, current).1, current)
  {
    var I := wl[current];
    FindRepresented(g, d, I);
    var ci := IndexState(d, I, IsSimilar);
    var (d', pushes) := ScanItems(g, I, ci, current, 0, d);
    assert Step(g, d, wl, current).0 == d';
    assert Step(g, d, wl, current).1 == pushes;
  }

  /** The sets still to be scanned after a step avoid the items of state
      `n`, when they did before it. */
  lemma KeepApart(states: seq<ItemSet>, states': seq<ItemSet>, wl: seq<ItemSet>, pushes: seq<ItemSet>, current: nat, n: nat)
    requires states <= states' && Distinct(states') && n < |states| && n <= current
    requires Avoids(wl, current, Elems(states[n]))
    requires AllPushedAfter(states', pushes, current)
    ensures Avoids(wl + pushes, current + 1, Elems(states'[n]))
  {
    assert states'[n] == states[n];
    forall p: nat | current + 1 <= p ensures AvoidsAt(wl + pushes, p, Elems(states'[n])) {
      if p < |wl| {
        assert (wl + pushes)[p] == wl[p];
        assert AvoidsAt(wl, p, Elems(states[n]));
      } else if p < |wl + pushes| {
        assert (wl + pushes)[p] == pushes[p - |wl|];
        assert PushedAfter(states', pushes[p - |wl|], current);
        var k :| current < k < |states'| && Elems(states'[k]) == Elems(pushes[p - |wl|]);
        assert Apart(states', n, k);
      }
    }
  }

  /** One iteration of the outer loop keeps a skipped state skipped. */
  lemma StepKeepsSkipped(g: Grammar, d: Automaton, wl: seq<ItemSet>, current: nat, n: nat)
    requires Inv(g, d, wl, current) && current < |wl|
    requires Skipped(d, wl, current, n)
    ensures d.states <= Step(g, d, wl, current).0.states
    ensures Skipped(Step(g, d, wl, current).0, wl + Step(g, d, wl, current).1, current + 1, n)
  {
    var (d', pushes) := Step(g, d, wl, current);
    StepFacts(g, d, wl, current);
    var ci :| 0 <= ci < |d.states| && Elems(d.states[ci]) == Elems(wl[current]) && OnlyNewFrom(d.connects, d'.connects, ci);
    assert AvoidsAt(wl, current, Elems(d.states[n]));
    assert d'.states[n] == d.states[n];
    KeepApart(d.states, d'.states, wl, pushes, current, n);
  }

  /** The outer loop never adds a transition from a skipped state. */
  lemma {:induction false} ExploreKeepsSkipped(g: Grammar, d: Automaton, wl: seq<ItemSet>, current: nat, n: nat)
    requires Inv(g, d, wl, current)
    requires Skipped(d, wl, current, n)
    ensures n < |Explore(g, d, wl, current).states| && Explore(g, d, wl, current).states[n] == d.states[n]
    ensures NoneFrom(Explore(g, d, wl, current).connects, n)
    decreases 1 + Mul(StateBound(g), ItemBound(g)) - current, 1
  {
    if current < |wl| {
      StepKeepsSkipped(g, d, wl, current, n);
      ExploreNextKeepsSkipped(g, Step(g, d, wl, current), wl, current, n);
    }
  }

  /** The same, for the rest of the loop after the step at `current`. */
  lemma {:induction false} ExploreNextKeepsSkipped(g: Grammar, step: (Automaton, seq<ItemSet>), wl: seq<ItemSet>, current: nat, n: nat)
    requires Inv(g, step.0, wl + step.1, current + 1)
    requires current + 1 <= 1 + Mul(StateBound(g), ItemBound(g))
    requires Skipped(step.0, wl + step.1, current + 1, n)
    ensures n < |ExploreNext(g, step, wl, current).states| && ExploreNext(g, step, wl, current).states[n] == step.0.states[n]
    ensures NoneFrom(ExploreNext(g, step, wl, current).connects, n)
    decreases 1 + Mul(StateBound(g), ItemBound(g)) - current - 1, 2
  {
    ExploreKeepsSkipped(g, step.0, wl + step.1, current + 1, n);
  }

  /** The sets still to be scanned after a step avoid the items of a state
      `n` appended during it. */
  lemma NewApart(g: Grammar, states: seq<ItemSet>, states': seq<ItemSet>, wl: seq<ItemSet>, pushes: seq<ItemSet>, current: nat, n: nat)
    requires states <= states' && Distinct(states') && |states| <= n < |states'| && n <= current
    requires forall p {:trigger Represented(g, states, wl[p])} :: 0 <= p < |wl| ==> Represented(g, states, wl[p])
    requires AllPushedAfter(states', pushes, current)
    ensures Avoids(wl + pushes, current + 1, Elems(states'[n]))
  {
    forall p: nat | current + 1 <= p ensures AvoidsAt(wl + pushes, p, Elems(states'[n])) {
      if p < |wl| {
        assert (wl + pushes)[p] == wl[p];
        assert Represented(g, states, wl[p]);
        var k :| 0 <= k < |states| && Elems(states[k]) == Elems(wl[p]);
        assert states'[k] == states[k];
        assert Apart(states', k, n);
      } else if p < |wl + pushes| {
        assert (wl + pushes)[p] == pushes[p - |wl|];
        assert PushedAfter(states', pushes[p - |wl|], current);
        var k :| current < k < |states'| && Elems(states'[k]) == Elems(pushes[p - |wl|]);
        assert Apart(states', n, k);
      }
    }
  }

  /** Transitions added from states below `len` leave none from `n`. */
  lemma NoneFromNew(cs: seq<Connection>, cs': seq<Connection>, ci: int, len: int, n: int)
    requires forall c :: c in cs ==> c.origin < len
    requires OnlyNewFrom(cs, cs', ci) && ci < len <= n
    ensures NoneFrom(cs', n)
  {
  }

  /** A state appended during the iteration at position `current`, with an
      index not above `current`, is in the automaton `init` returns and
      has no transition there. */
  lemma LateStateNeverScanned(g: Grammar, d: Automaton, wl: seq<ItemSet>, current: nat, n: nat)
    requires Inv(g, d, wl, current) && current < |wl|
    requires |d.states| <= n < |Step(g, d, wl, current).0.states| && n <= current
    ensures n < |Explore(g, d, wl, current).states|
    ensures Explore(g, d, wl, current).states[n] == Step(g, d, wl, current).0.states[n]
    ensures NoneFrom(Explore(g, d, wl, current).connects, n)
  {
    var (d', pushes) := Step(g, d, wl, current);
    StepFacts(g, d, wl, current);
    var ci :| 0 <= ci < |d.states| && Elems(d.states[ci]) == Elems(wl[current]) && OnlyNewFrom(d.connects, d'.connects, ci);
    ConnectsInRange(g, d);
    NoneFromNew(d.connects, d'.connects, ci, |d.states|, n);
    NewApart(g, d.states, d'.states, wl, pushes, current, n);
    assert Skipped(d', wl + pushes, current + 1, n);
    ExploreNextKeepsSkipped(g, Step(g, d, wl, current), wl, current, n);
  }

  /** If the late state holds an item with a symbol after the dot, the
      automaton `init` returns is not complete: that item has no
      transition, which the corrected construction always provides. */
  lemma LateStateIncomplete(g: Grammar, d: Automaton, wl: seq<ItemSet>, current: nat, n: nat, it: Item)
    requires Inv(g, d, wl, current) && current < |wl|
    requires |d.states| <= n < |Step(g, d, wl, current).0.states| && n <= current
    requires it in Step(g, d, wl, current).0.states[n] && HasNext(g, it)
    ensures !Complete(g, Explore(g, d, wl, current))
  {
    LateStateNeverScanned(g, d, wl, current, n);
    assert !Expanded(g, Explore(g, d, wl, current), n);
  }

  // ---------------------------------------------------------------------
  // A loop configuration that meets the requires of `LateStateIncomplete`:
  // state 0 stored once and on the worklist twice, at position 1. `init`
  // itself does not reach it on this grammar; it shows the lemma applies.

  /** The one-rule grammar `S -> a b`. */
  function ExampleGrammar(): Grammar {
    var s, a, b := Token(NonTerminal, "S"), Token(Terminal, "a"), Token(Terminal, "b");
    Grammar([s], [a, b], [Rule(s, [a, b])])
  }

  /** State 0 is `S -> . a b` alone, and it is a good state. */
  lemma ExampleStart()
    ensures InitialState(ExampleGrammar()) == [Item(0, 0)]
    ensures GoodSet(ExampleGrammar(), [Item(0, 0)])
  {
    var I0 := [Item(0, 0)];
    assert Elems(I0) == {Item(0, 0)};
    assert Closed(ExampleGrammar(), Elems(I0));
    ClosureOfClosed(ExampleGrammar(), I0);
    assert AddItem([], Item(0, 0)).0 == I0;
  }

  /** State 0 stored, the worklist holding it twice, position 1: the loop
      invariant holds. */
  lemma ExampleInv()
    ensures Inv(ExampleGrammar(), Dfa([[Item(0, 0)]], []), [[Item(0, 0)], [Item(0, 0)]], 1)
  {
    var g := ExampleGrammar();
    var I0 := [Item(0, 0)];
    var d := Dfa([I0], []);
    ExampleStart();
    assert StatesOk(g, d.states) by { assert Apart(d.states, 0, 0); }
    assert Represented(g, d.states, I0) by { assert Elems(d.states[0]) == Elems(I0); }
    assert Item(0, 0) in Universe(g);
    assert ItemBound(g) >= 1;
    assert Min(1, StateBound(g)) == 1;
    assert Mul(1, ItemBound(g)) == ItemBound(g);
  }

  /** The successor of state 0 on `a` holds `S -> a . b`. */
  lemma ExampleSuccessor()
    ensures HasNext(ExampleGrammar(), Item(0, 0))
    ensures Item(0, 1) in Closure(ExampleGrammar(), Goto(ExampleGrammar(), [Item(0, 0)], NextToken(ExampleGrammar(), Item(0, 0))))
  {
    var x := NextToken(ExampleGrammar(), Item(0, 0));
    assert Item(0, 1) in Goto(ExampleGrammar(), [Item(0, 0)], x);
    assert Item(0, 1) in Elems(Goto(ExampleGrammar(), [Item(0, 0)], x));
  }

  /** No state of `states` holds `it`. */
  ghost predicate Unheld(states: seq<ItemSet>, it: Item) {
    forall k :: 0 <= k < |states| ==> it !in states[k]
  }

  /** An item a state lacks is held by no state of the list of that state alone. */
  lemma UnheldSingle(I: ItemSet, it: Item)
    requires it !in I
    ensures Unheld([I], it)
  {
    assert [I][0] == I;
  }

  /** An item found in some state of a list grown by at most one state,
      and in none of the old ones, is in the appended state. */
  lemma InAppended(states0: seq<ItemSet>, states: seq<ItemSet>, t: nat, it: Item)
    requires states0 <= states && |states| <= |states0| + 1 && t < |states|
    requires it in Elems(states[t]) && Unheld(states0, it)
    ensures |states| == |states0| + 1 && it in states[|states0|]
  {
  }

  /** If a good automaton grown from `d` by at most one state has a
      transition from state `ci` on `x`, and the successor of that state on
      `x` holds an item no old state holds, the grown automaton appended a
      state and that state holds the item. */
  lemma TargetAppended(g: Grammar, d: Automaton, d': Automaton, ci: nat, x: Token, it: Item)
    requires GraphOk(g, d') && d.states <= d'.states && |d'.states| <= |d.states| + 1
    requires ci < |d.states| && exists t :: Connection(ci, t, x) in d'.connects
    requires RulesExist(g, d.states[ci]) && it in Closure(g, Goto(g, d.states[ci], x))
    requires Unheld(d.states, it)
    ensures |d'.states| == |d.states| + 1 && it in d'.states[|d.states|]
  {
    var t :| Connection(ci, t, x) in d'.connects;
    assert Justified(g, d'.states, Connection(ci, t, x));
    assert d'.states[ci] == d.states[ci];
    InAppended(d.states, d'.states, t, it);
  }

  /** Scanning a one-item state whose successor holds an item no stored
      state holds appends exactly one state, and that state holds the item. */
  lemma ScanSingleAppends(g: Grammar, I: ItemSet, ci: nat, current: nat, d: Automaton, it: Item)
    requires GoodSet(g, I) && |I| == 1 && HasNext(g, I[0])
    requires GraphOk(g, d) && ci < |d.states| && Elems(d.states[ci]) == Elems(I) && RulesExist(g, d.states[ci])
    requires it in Closure(g, Goto(g, d.states[ci], NextToken(g, I[0])))
    requires Unheld(d.states, it)
    ensures |ScanItems(g, I, ci, current, 0, d).0.states| == |d.states| + 1
    ensures it in ScanItems(g, I, ci, current, 0, d).0.states[|d.states|]
  {
    var r := ScanItems(g, I, ci, current, 0, d);
    TargetAppended(g, d, r.0, ci, NextToken(g, I[0]), it);
  }

  /** A state stored once and on the worklist twice, at position 1: the pass
      at position 1 finds it at index 0 and scans it there. */
  lemma RevisitScans(g: Grammar, I0: ItemSet)
    requires Inv(g, Dfa([I0], []), [I0, I0], 1)
    ensures GoodSet(g, I0) && GraphOk(g, Dfa([I0], []))
    ensures Step(g, Dfa([I0], []), [I0, I0], 1) == ScanItems(g, I0, 0, 1, 0, Dfa([I0], []))
  {
    var d := Dfa([I0], []);
    assert IsSimilar(I0, I0);
    assert IndexState(d, I0, IsSimilar) == 0;
    assert Represented(g, d.states, [I0, I0][1]);
  }

  /** A one-item state stored once and on the worklist twice, at position 1:
      if its successor holds an item that the state lacks, the pass at
      position 1 appends exactly one state, and that state holds the item. */
  lemma RevisitAppends(g: Grammar, I0: ItemSet, it: Item)
    requires Inv(g, Dfa([I0], []), [I0, I0], 1) && |I0| == 1 && HasNext(g, I0[0])
    requires RulesExist(g, I0) && it in Closure(g, Goto(g, I0, NextToken(g, I0[0]))) && it !in I0
    ensures var s := Step(g, Dfa([I0], []), [I0, I0], 1).0.states;
      |s| == 2 && it in s[1]
  {
    RevisitScans(g, I0);
    UnheldSingle(I0, it);
    ScanSingleAppends(g, I0, 0, 1, Dfa([I0], []), it);
  }

  /** In that configuration, if the appended state's item has a next symbol,
      the automaton the loop ends with is not complete: the new state is
      never pushed and never scanned. */
  lemma RevisitedStateLoses(g: Grammar, I0: ItemSet, it: Item)
    requires Inv(g, Dfa([I0], []), [I0, I0], 1) && |I0| == 1 && HasNext(g, I0[0])
    requires RulesExist(g, I0) && it in Closure(g, Goto(g, I0, NextToken(g, I0[0])))
    requires it !in I0 && HasNext(g, it)
    ensures !Complete(g, Explore(g, Dfa([I0], []), [I0, I0], 1))
  {
    RevisitAppends(g, I0, it);
    LateStateIncomplete(g, Dfa([I0], []), [I0, I0], 1, 1, it);
  }

  /** For `S -> a b`, from that configuration the pass at position 1
      appends `S -> a . b` as state 1 without pushing it, and the automaton
      the loop ends with lacks the transition on `b` from state 1. */
  lemma LateStateExample()
    ensures var I0 := [Item(0, 0)];
      && Inv(ExampleGrammar(), Dfa([I0], []), [I0, I0], 1)
      && !Complete(ExampleGrammar(), Explore(ExampleGrammar(), Dfa([I0], []), [I0, I0], 1))
  {
    ExampleInv();
    ExampleStart();
    ExampleSuccessor();
    assert HasNext(ExampleGrammar(), Item(0, 1));
    RevisitedStateLoses(ExampleGrammar(), [Item(0, 0)], Item(0, 1));
  }
}

=== FILE: lr.dfy ===
/** `LR.goto` and `LR.clousre` of index.ts: advancing the dot past one
    symbol, and closing an item set under the prediction of non-terminals. */
module Lr {
  import opened Tokens
  import opened Grammars
  import opened Items
  import opened Collections

  /** Every item names an existing rule; the source looks up
      `rules[rule_number]` for each item and fails otherwise. */
  ghost predicate RulesExist(g: Grammar, s: ItemSet) {
    forall it :: it in s ==> it.ruleNumber < |g.rules|
  }

  /** Every item names an existing rule and has its dot inside it. */
  ghost predicate WellFormed(g: Grammar, s: ItemSet) {
    forall it :: it in s ==> it.ruleNumber < |g.rules| && it.dotPos <= |g.rules[it.ruleNumber].rhs|
  }

  /** The symbol after the dot of `it` has the name of `x`. Only names are
      compared, as `goto` does. */
  predicate NextMatches(g: Grammar, it: Item, x: Token) {
    && it.ruleNumber < |g.rules|
    && it.dotPos < |g.rules[it.ruleNumber].rhs|
    && g.rules[it.ruleNumber].rhs[it.dotPos].value == x.value
  }

  /** `x` is the item `goto(s, X)` produces from some item of `s`: its
      predecessor, with the dot one place to the left, is in `s` and has a
      symbol named like `X` after the dot. */
  ghost predicate Advanced(g: Grammar, s: ItemSet, x: Token, it: Item) {
    it.dotPos > 0 && Item(it.ruleNumber, it.dotPos - 1) in s && NextMatches(g, Item(it.ruleNumber, it.dotPos - 1), x)
  }

  // ---------------------------------------------------------------------
  // goto

  /** The items advanced from a non-empty list are those advanced from its
      tail, and the successor of its head if the head expects `x`. */
  lemma AdvancedSplit(g: Grammar, items: ItemSet, x: Token)
    requires items != []
    ensures forall it :: Advanced(g, items, x, it) <==>
              || Advanced(g, items[1..], x, it)
              || (NextMatches(g, items[0], x) && it == Item(items[0].ruleNumber, items[0].dotPos + 1))
  {
    assert forall y :: y in items <==> y == items[0] || y in items[1..];
  }

  /** The loop of `goto` over `items`, adding to `res`. */
  function GotoAcc(g: Grammar, items: ItemSet, x: Token, res: ItemSet): (r: ItemSet)
    requires RulesExist(g, items)
    ensures res <= r
    ensures forall it :: it in r <==> it in res || Advanced(g, items, x, it)
    ensures NoDup(res) ==> NoDup(r)
    decreases |items|
  {
    if items == [] then res
    else
      var it := items[0];
      var toks := g.rules[it.ruleNumber].rhs;
      var res' := if |toks| <= it.dotPos || toks[it.dotPos].value != x.value then res
                  else AddItem(res, Item(it.ruleNumber, it.dotPos + 1)).0;
      assert forall y :: y in res' <==> y in res || (NextMatches(g, it, x) && y == Item(it.ruleNumber, it.dotPos + 1));
      AdvancedSplit(g, items, x);
      var r := GotoAcc(g, items[1..], x, res');
      PrefixTrans(res, res', r);
      r
  }

  /** `goto(set, token)`: the items of `s` whose next symbol is named like
      `x`, with the dot moved past it. Complete items and items expecting
      another name contribute nothing. */
  function Goto(g: Grammar, s: ItemSet, x: Token): (r: ItemSet)
    requires RulesExist(g, s)
    ensures NoDup(r)
    ensures forall it :: it in r <==> Advanced(g, s, x, it)
    ensures forall it :: it in r ==> it.dotPos > 0
    ensures WellFormed(g, r)
  {
    GotoAcc(g, s, x, [])
  }

  /** Two item lists with the same items have the same successors. */
  lemma GotoSameItems(g: Grammar, a: ItemSet, b: ItemSet, x: Token)
    requires RulesExist(g, a) && Elems(a) == Elems(b)
    ensures RulesExist(g, b)
    ensures Elems(Goto(g, a, x)) == Elems(Goto(g, b, x))
  {
    assert forall it :: it in a <==> it in b by {
      assert forall it :: it in a <==> it in Elems(a);
      assert forall it :: it in b <==> it in Elems(b);
    }
  }

  // ---------------------------------------------------------------------
  // closure

  /** Item `it` expects a non-terminal named like the left-hand side of
      rule `i`, so a closed set holding `it` holds `(i, 0)`. The kind of the
      expected symbol decides whether anything is predicted; the match
      against left-hand sides is by name only, as in `clousre`. */
  predicate Demands(g: Grammar, it: Item, i: nat) {
    && it.ruleNumber < |g.rules|
    && it.dotPos < |g.rules[it.ruleNumber].rhs|
    && g.rules[it.ruleNumber].rhs[it.dotPos].kind == NonTerminal
    && i < |g.rules|
    && g.rules[i].lhs.value == g.rules[it.ruleNumber].rhs[it.dotPos].value
  }

  /** Closed under prediction. */
  ghost predicate Closed(g: Grammar, t: set<Item>) {
    forall it, i: nat :: it in t && Demands(g, it, i) ==> Item(i, 0) in t
  }

  /** Everything `it` demands is in `t`. */
  ghost predicate Served(g: Grammar, t: set<Item>, it: Item) {
    forall i: nat :: Demands(g, it, i) ==> Item(i, 0) in t
  }

  /** The items with the dot at the start of some rule: all that the
      closure can add. */
  function StartItems(g: Grammar): set<Item> {
    set i: nat | i < |g.rules| :: Item(i, 0)
  }

  /** The inner loop of `clousre`: for rule numbers from `i` on, adds
      `(i, 0)` for every rule whose left-hand side is named `name`. */
  function AddPredicted(g: Grammar, res: ItemSet, name: string, i: nat): (r: ItemSet)
    requires i <= |g.rules|
    ensures res <= r
    ensures forall it :: it in r <==>
              it in res || (it.dotPos == 0 && i <= it.ruleNumber < |g.rules| && g.rules[it.ruleNumber].lhs.value == name)
    ensures NoDup(res) ==> NoDup(r)
    decreases |g.rules| - i
  {
    if i == |g.rules| then res
    else
      var res' := if g.rules[i].lhs.value != name then res else AddItem(res, Item(i, 0)).0;
      var r := AddPredicted(g, res', name, i + 1);
      PrefixTrans(res, res', r);
      r
  }

  /** Removing from `u` a further element of `u` shrinks what is left. */
  lemma GapShrinks(u: set<Item>, e: set<Item>, e': set<Item>, x: Item)
    requires e <= e' && x in e' && x !in e && x in u
    ensures |u - e'| < |u - e|
  {
    assert u - e' <= (u - e) - {x};
    SubsetCard(u - e', (u - e) - {x});
    assert u - e == ((u - e) - {x}) + {x};
  }

  /** What one step of the closure loop does to the list: the predictions
      of `res[k]`, if it expects a non-terminal. */
  function ClosureStep(g: Grammar, res: ItemSet, k: nat): (r: ItemSet)
    requires RulesExist(g, res) && k < |res|
    ensures res <= r
    ensures forall it :: it in r <==> it in res || (it.dotPos == 0 && Demands(g, res[k], it.ruleNumber))
    ensures NoDup(res) ==> NoDup(r)
  {
    var it := res[k];
    var toks := g.rules[it.ruleNumber].rhs;
    if |toks| <= it.dotPos || toks[it.dotPos].kind == Terminal then res
    else AddPredicted(g, res, toks[it.dotPos].value, 0)
  }

  /** The loop of `clousre` from position `k` of the growing list `res`.
      The source iterates with `for ... of` over the very array that
      `add_item` appends to, so items added during the scan are scanned
      too; the recursion follows the list as it grows. It ends because
      each step either moves on or adds an item with the dot at the start,
      of which there are finitely many. */
  function ClosureFrom(g: Grammar, res: ItemSet, k: nat): (r: ItemSet)
    requires NoDup(res) && RulesExist(g, res) && k <= |res|
    requires forall j :: 0 <= j < k ==> Served(g, Elems(res), res[j])
    ensures res <= r
    ensures NoDup(r) && RulesExist(g, r)
    ensures forall it :: it in r ==> it in res || (it.dotPos == 0 && it.ruleNumber < |g.rules|)
    ensures Closed(g, Elems(r))
    decreases |StartItems(g) - Elems(res)|, |res| - k
  {
    if k == |res| then
      AllServedClosed(g, res);
      res
    else
      var res' := ClosureStep(g, res, k);
      ClosureStepProgress(g, res, k);
      var r := ClosureFrom(g, res', k + 1);
      PrefixTrans(res, res', r);
      r
  }

  /** A list all of whose items are served is closed. */
  lemma AllServedClosed(g: Grammar, res: ItemSet)
    requires forall j :: 0 <= j < |res| ==> Served(g, Elems(res), res[j])
    ensures Closed(g, Elems(res))
  {
    forall it, i: nat | it in Elems(res) && Demands(g, it, i) ensures Item(i, 0) in Elems(res) {
      var j :| 0 <= j < |res| && res[j] == it;
      assert Served(g, Elems(res), res[j]);
    }
  }

  /** After the step at position `k`, the item there is served. */
  lemma ServedAfterStep(g: Grammar, res: ItemSet, k: nat)
    requires RulesExist(g, res) && k < |res|
    ensures Served(g, Elems(ClosureStep(g, res, k)), res[k])
  {
    var res' := ClosureStep(g, res, k);
    forall i: nat | Demands(g, res[k], i) ensures Item(i, 0) in Elems(res') {
      assert Item(i, 0) in res';
    }
  }

  /** Being served survives adding items. */
  lemma ServedGrows(g: Grammar, t: set<Item>, t': set<Item>, it: Item)
    requires Served(g, t, it) && t <= t'
    ensures Served(g, t', it)
  {
  }

  /** One step of the closure loop keeps the scanned prefix served, and
      either leaves the list alone or adds a start item it did not hold. */
  lemma ClosureStepProgress(g: Grammar, res: ItemSet, k: nat)
    requires NoDup(res) && RulesExist(g, res) && k < |res|
    requires forall j :: 0 <= j < k ==> Served(g, Elems(res), res[j])
    ensures var res' := ClosureStep(g, res, k);
      && RulesExist(g, res')
      && (forall j :: 0 <= j <= k ==> Served(g, Elems(res'), res'[j]))
      && (res' == res || |StartItems(g) - Elems(res')| < |StartItems(g) - Elems(res)|)
  {
    var res' := ClosureStep(g, res, k);
    assert Elems(res) <= Elems(res');
    ServedAfterStep(g, res, k);
    forall j | 0 <= j <= k ensures Served(g, Elems(res'), res'[j]) {
      assert res'[j] == res[j];
      if j < k {
        ServedGrows(g, Elems(res), Elems(res'), res[j]);
      }
    }
    if |res'| == |res| {
      assert res' == res'[..|res|];
    } else {
      var x := res'[|res|];
      assert x !in res by {
        assert res' == res + res'[|res|..];
        NoDupSplit(res, res'[|res|..]);
        assert x == res'[|res|..][0];
        assert x in Elems(res'[|res|..]);
        assert x !in Elems(res) * Elems(res'[|res|..]);
      }
      assert x in StartItems(g) by {
        assert x == Item(x.ruleNumber, 0);
      }
      GapShrinks(StartItems(g), Elems(res), Elems(res'), x);
    }
  }

  /** `clousre(set)`: copies `s` into a fresh set and closes it. */
  function Closure(g: Grammar, s: ItemSet): (r: ItemSet)
    requires RulesExist(g, s)
    ensures NoDup(r) && RulesExist(g, r)
    ensures Elems(s) <= Elems(r)
    ensures Closed(g, Elems(r))
    ensures forall it :: it in r ==> it in s || (it.dotPos == 0 && it.ruleNumber < |g.rules|)
    ensures WellFormed(g, s) ==> WellFormed(g, r)
  {
    var start := Concat([], s);
    assert forall it :: it in start <==> it in s by {
      assert forall it :: it in start <==> it in Elems(start);
    }
    var r := ClosureFrom(g, start, 0);
    assert forall it :: it in start ==> it in r by {
      assert forall j :: 0 <= j < |start| ==> r[j] == start[j];
    }
    r
  }

  /** The closure is the least closed set containing `s`: it lies inside
      every closed superset of `s`. */
  lemma ClosureLeast(g: Grammar, s: ItemSet, t: set<Item>)
    requires RulesExist(g, s) && Elems(s) <= t && Closed(g, t)
    ensures Elems(Closure(g, s)) <= t
  {
    var start := Concat([], s);
    assert forall it :: it in start ==> it in s by {
      assert forall it :: it in start <==> it in Elems(start);
    }
    ClosureFromLeast(g, start, 0, t);
  }

  lemma {:induction false} ClosureFromLeast(g: Grammar, res: ItemSet, k: nat, t: set<Item>)
    requires NoDup(res) && RulesExist(g, res) && k <= |res|
    requires forall j :: 0 <= j < k ==> Served(g, Elems(res), res[j])
    requires Elems(res) <= t && Closed(g, t)
    ensures Elems(ClosureFrom(g, res, k)) <= t
    decreases |StartItems(g) - Elems(res)|, |res| - k
  {
    if k < |res| {
      var res' := ClosureStep(g, res, k);
      ClosureStepProgress(g, res, k);
      ClosureStepInside(g, res, k, t);
      assert ClosureFrom(g, res, k) == ClosureFrom(g, res', k + 1);
      ClosureFromLeast(g, res', k + 1, t);
    }
  }

  /** A closure step adds nothing outside a closed superset. */
  lemma ClosureStepInside(g: Grammar, res: ItemSet, k: nat, t: set<Item>)
    requires RulesExist(g, res) && k < |res|
    requires Elems(res) <= t && Closed(g, t)
    ensures Elems(ClosureStep(g, res, k)) <= t
  {
    var res' := ClosureStep(g, res, k);
    assert res[k] in t;
    forall it | it in res' ensures it in t {
      if it !in res {
        assert Item(it.ruleNumber, 0) == it;
      }
    }
  }

  /** Closing a closed duplicate-free list gives it back unchanged. */
  lemma ClosureOfClosed(g: Grammar, s: ItemSet)
    requires NoDup(s) && RulesExist(g, s) && Closed(g, Elems(s))
    ensures Closure(g, s) == s
  {
    assert [] + s == s;
    ConcatCopies([], s);
    ClosureFromClosed(g, s, 0);
  }

  /** In a closed list every item is served. */
  lemma ClosedServed(g: Grammar, res: ItemSet, k: nat)
    requires Closed(g, Elems(res)) && k < |res|
    ensures Served(g, Elems(res), res[k])
  {
    assert res[k] in Elems(res);
  }

  /** On a closed duplicate-free list a closure step adds nothing. */
  lemma ClosureStepClosed(g: Grammar, res: ItemSet, k: nat)
    requires NoDup(res) && RulesExist(g, res) && k < |res|
    requires Closed(g, Elems(res))
    ensures ClosureStep(g, res, k) == res
  {
    var res' := ClosureStep(g, res, k);
    ClosedServed(g, res, k);
    assert Elems(res') == Elems(res);
    assert res' == res'[..|res|];
  }

  lemma {:induction false} ClosureFromClosed(g: Grammar, res: ItemSet, k: nat)
    requires NoDup(res) && RulesExist(g, res) && k <= |res|
    requires Closed(g, Elems(res))
    requires forall j :: 0 <= j < k ==> Served(g, Elems(res), res[j])
    ensures ClosureFrom(g, res, k) == res
    decreases |res| - k
  {
    if k < |res| {
      ClosureStepClosed(g, res, k);
      ClosedServed(g, res, k);
      assert ClosureFrom(g, res, k) == ClosureFrom(g, res, k + 1);
      ClosureFromClosed(g, res, k + 1);
    }
  }

  /** `clousre(clousre(S))` is `clousre(S)`: the closure is a fixed point. */
  lemma ClosureIdempotent(g: Grammar, s: ItemSet)
    requires RulesExist(g, s)
    ensures Closure(g, Closure(g, s)) == Closure(g, s)
    ensures IsSimilar(Closure(g, Closure(g, s)), Closure(g, s))
  {
    ClosureOfClosed(g, Closure(g, s));
  }

  /** The closure depends only on which items the argument holds, not on
      their order. */
  lemma ClosureSameItems(g: Grammar, a: ItemSet, b: ItemSet)
    requires RulesExist(g, a) && RulesExist(g, b) && Elems(a) == Elems(b)
    ensures Elems(Closure(g, a)) == Elems(Closure(g, b))
  {
    ClosureLeast(g, a, Elems(Closure(g, b)));
    ClosureLeast(g, b, Elems(Closure(g, a)));
  }
}

=== FILE: lrtable.dfy ===
/** `LR.table` (index.ts): the parse table filled from the automaton. Every
    transition becomes a shift (terminal symbol) or a go (variable) to its
    target, in the transition's row and the column of its symbol; every
    complete item of a state becomes a reduce by its rule in that state's
    row, once per terminal. `ConnectActions` and `ReduceActions` say, cell by
    cell, what ends up where; `BuildTable` is the loop itself. */
module LrTable {
  import opened Tokens
  import opened Grammars
  import opened Items
  import opened Dfas
  import opened Lr
  import opened LrAutomaton
  import opened Tables

  /** The action a transition writes: shift for a `TERMINAL` symbol,
      go otherwise, with the target state as index. */
  function ActionOf(c: Connection): (a: Action)
    ensures a.index == c.target
    ensures a.command == Shift <==> c.token.kind == Terminal
    ensures a.command != Reduce
  {
    Action(if c.token.kind == Terminal then Shift else Go, c.target)
  }

  /** The dot of `it` is at (or past) the end of its rule. */
  predicate Reducible(g: Grammar, it: Item)
    requires it.ruleNumber < |g.rules|
  {
    |g.rules[it.ruleNumber].rhs| <= it.dotPos
  }

  /** The column headers of the table: the grammar's terminals and
      variables. */
  function ColumnsOf(g: Grammar): Columns {
    Columns(g.terminals, g.vars)
  }

  /** What the transitions `cs`, added in order, leave in cell
      (`i`, `side`, `j`). */
  ghost function ConnectActions(cols: Columns, cs: seq<Connection>, i: int, side: Side, j: int): Cell
    decreases |cs|
  {
    if cs == [] then []
    else
      var c := cs[|cs| - 1];
      ConnectActions(cols, cs[..|cs| - 1], i, side, j) + (if Targets(cols, c.origin, c.token, i, side, j) then [ActionOf(c)] else [])
  }

  /** What `terminals.forEach(t => add_cmd(i, t, a))` over `ts` leaves in
      column `j` of `side` of row `i`. */
  ghost function TermHits(cols: Columns, ts: seq<Token>, side: Side, j: int, a: Action): Cell
    decreases |ts|
  {
    if ts == [] then []
    else TermHits(cols, ts[..|ts| - 1], side, j, a) + (if Hits(cols, ts[|ts| - 1], side, j) then [a] else [])
  }

  /** What the complete items among `items`, visited in order, leave in
      column `j` of `side` of their state's row. */
  ghost function ReduceActions(g: Grammar, cols: Columns, items: ItemSet, side: Side, j: int): Cell
    requires RulesExist(g, items)
    decreases |items|
  {
    if items == [] then []
    else
      var it := items[|items| - 1];
      assert forall x :: x in items[..|items| - 1] ==> x in items;
      ReduceActions(g, cols, items[..|items| - 1], side, j)
        + (if Reducible(g, it) then TermHits(cols, g.terminals, side, j, Action(Reduce, it.ruleNumber)) else [])
  }

  /** What `table` may be given: every transition leaves an existing state
      and every item of every state names an existing rule. */
  ghost predicate TableReady(g: Grammar, d: Automaton) {
    && (forall c :: c in d.connects ==> 0 <= c.origin < |d.states|)
    && (forall i {:trigger d.states[i]} :: 0 <= i < |d.states| ==> RulesExist(g, d.states[i]))
  }

  /** The contents `table` gives cell (`i`, `side`, `j`): the transitions'
      actions in transition order, then the reduces in item order. */
  ghost function Expected(g: Grammar, d: Automaton, i: nat, side: Side, j: int): Cell
    requires TableReady(g, d) && i < |d.states|
  {
    ConnectActions(ColumnsOf(g), d.connects, i, side, j) + ReduceActions(g, ColumnsOf(g), d.states[i], side, j)
  }

  /** `terminals.forEach(t => add_cmd(i, t, a))`. */
  method AddToTerminals(t0: Table, i: nat, ts: seq<Token>, a: Action) returns (t: Table)
    requires Shaped(t0) && i < |t0.rows|
    ensures Shaped(t) && t.cols == t0.cols && |t.rows| == |t0.rows|
    ensures forall i', side, j :: 0 <= i' < |t.rows| && 0 <= j < |Headers(t.cols, side)| ==>
              CellOf(t, i', side, j) == CellOf(t0, i', side, j) + (if i' == i then TermHits(t0.cols, ts, side, j, a) else [])
  {
    t := t0;
    var n := 0;
    while n < |ts|
      invariant n <= |ts|
      invariant Shaped(t) && t.cols == t0.cols && |t.rows| == |t0.rows|
      invariant forall i', side, j :: 0 <= i' < |t.rows| && 0 <= j < |Headers(t.cols, side)| ==>
                  CellOf(t, i', side, j) == CellOf(t0, i', side, j) + (if i' == i then TermHits(t0.cols, ts[..n], side, j, a) else [])
    {
      assert ts[..n + 1][..n] == ts[..n];
      t := AddCmd(t, i, ts[n], a);
      n := n + 1;
    }
    assert ts[..n] == ts;
  }

  /** The item loop of `table` for state `i`: a reduce by the rule of each
      complete item, in every terminal's column. */
  method AddReduces(g: Grammar, t0: Table, i: nat, items: ItemSet) returns (t: Table)
    requires Shaped(t0) && i < |t0.rows| && t0.cols == ColumnsOf(g)
    requires RulesExist(g, items)
    ensures Shaped(t) && t.cols == t0.cols && |t.rows| == |t0.rows|
    ensures forall i', side, j :: 0 <= i' < |t.rows| && 0 <= j < |Headers(t.cols, side)| ==>
              CellOf(t, i', side, j) == CellOf(t0, i', side, j) + (if i' == i then ReduceActions(g, t0.cols, items, side, j) else [])
  {
    t := t0;
    var m := 0;
    while m < |items|
      invariant m <= |items|
      invariant Shaped(t) && t.cols == t0.cols && |t.rows| == |t0.rows|
      invariant forall x :: x in items[..m] ==> x in items
      invariant forall i', side, j :: 0 <= i' < |t.rows| && 0 <= j < |Headers(t.cols, side)| ==>
                  CellOf(t, i', side, j) == CellOf(t0, i', side, j) + (if i' == i then ReduceActions(g, t0.cols, items[..m], side, j) else [])
    {
      assert items[..m + 1][..m] == items[..m];
      var it := items[m];
      if Reducible(g, it) {
        t := AddToTerminals(t, i, g.terminals, Action(Reduce, it.ruleNumber));
      }
      m := m + 1;
    }
    assert items[..m] == items;
  }

  /** The transition loop of `table`. */
  method AddTransitions(g: Grammar, d: Automaton, t0: Table) returns (t: Table)
    requires TableReady(g, d)
    requires Shaped(t0) && t0.cols == ColumnsOf(g) && |t0.rows| == |d.states|
    requires forall i, side, j :: 0 <= i < |t0.rows| && 0 <= j < |Headers(t0.cols, side)| ==> CellOf(t0, i, side, j) == []
    ensures Shaped(t) && t.cols == t0.cols && |t.rows| == |t0.rows|
    ensures forall i, side, j :: 0 <= i < |t.rows| && 0 <= j < |Headers(t.cols, side)| ==>
              CellOf(t, i, side, j) == ConnectActions(t0.cols, d.connects, i, side, j)
  {
    t := t0;
    var k := 0;
    while k < |d.connects|
      invariant k <= |d.connects|
      invariant Shaped(t) && t.cols == t0.cols && |t.rows| == |t0.rows|
      invariant forall i, side, j :: 0 <= i < |t.rows| && 0 <= j < |Headers(t.cols, side)| ==>
                  CellOf(t, i, side, j) == ConnectActions(t0.cols, d.connects[..k], i, side, j)
    {
      assert d.connects[..k + 1][..k] == d.connects[..k];
      var c := d.connects[k];
      assert c in d.connects;
      t := AddCmd(t, c.origin, c.token, ActionOf(c));
      k := k + 1;
    }
    assert d.connects[..k] == d.connects;
  }

  /** `table()`: one row per state; each cell holds exactly the actions
      `Expected` lists, in that order. */
  method BuildTable(g: Grammar, d: Automaton) returns (t: Table)
    requires TableReady(g, d)
    ensures Shaped(t) && t.cols == ColumnsOf(g) && |t.rows| == |d.states|
    ensures forall i, side, j :: 0 <= i < |t.rows| && 0 <= j < |Headers(t.cols, side)| ==>
              CellOf(t, i, side, j) == Expected(g, d, i, side, j)
  {
    var cols := ColumnsOf(g);
    t := NewTable(|d.states|, cols);
    t := AddTransitions(g, d, t);
    var i := 0;
    while i < |d.states|
      invariant i <= |d.states|
      invariant Shaped(t) && t.cols == cols && |t.rows| == |d.states|
      invariant forall i', side, j :: 0 <= i' < |t.rows| && 0 <= j < |Headers(t.cols, side)| ==>
                  CellOf(t, i', side, j) == ConnectActions(cols, d.connects, i', side, j)
                    + (if i' < i then ReduceActions(g, cols, d.states[i'], side, j) else [])
    {
      assert RulesExist(g, d.states[i]);
      t := AddReduces(g, t, i, d.states[i]);
      i := i + 1;
    }
  }

  /** Some transition in `cs` writes `a` to cell (`i`, `side`, `j`). */
  ghost predicate ConnectWrites(cols: Columns, cs: seq<Connection>, i: int, side: Side, j: int, a: Action) {
    exists c :: c in cs && Targets(cols, c.origin, c.token, i, side, j) && ActionOf(c) == a
  }

  /** Some complete item in `items` reduces by rule `a.index` and some
      terminal's column is column `j` of `side`. */
  ghost predicate ReduceWrites(g: Grammar, cols: Columns, items: ItemSet, side: Side, j: int, a: Action)
    requires RulesExist(g, items)
  {
    && a.command == Reduce
    && (exists it :: it in items && Reducible(g, it) && it.ruleNumber == a.index)
    && SomeHit(cols, g.terminals, side, j)
  }

  lemma {:induction false} ConnectActionsMember(cols: Columns, cs: seq<Connection>, i: int, side: Side, j: int, a: Action)
    ensures a in ConnectActions(cols, cs, i, side, j) <==> ConnectWrites(cols, cs, i, side, j, a)
    decreases |cs|
  {
    if cs != [] {
      var c := cs[|cs| - 1];
      var init := cs[..|cs| - 1];
      assert cs == init + [c];
      ConnectActionsMember(cols, init, i, side, j, a);
      if ConnectWrites(cols, cs, i, side, j, a) && !ConnectWrites(cols, init, i, side, j, a) {
        var c' :| c' in cs && Targets(cols, c'.origin, c'.token, i, side, j) && ActionOf(c') == a;
        assert c' == c;
      }
    }
  }

  /** Some token of `ts` has column `j` of `side`. */
  ghost predicate SomeHit(cols: Columns, ts: seq<Token>, side: Side, j: int) {
    exists t :: t in ts && Hits(cols, t, side, j)
  }

  lemma {:induction false} TermHitsMember(cols: Columns, ts: seq<Token>, side: Side, j: int, a: Action, b: Action)
    ensures b in TermHits(cols, ts, side, j, a) <==> b == a && SomeHit(cols, ts, side, j)
    decreases |ts|
  {
    if ts != [] {
      var init := ts[..|ts| - 1];
      assert ts == init + [ts[|ts| - 1]];
      TermHitsMember(cols, init, side, j, a, b);
      if SomeHit(cols, ts, side, j) && !SomeHit(cols, init, side, j) {
        var t :| t in ts && Hits(cols, t, side, j);
        assert t == ts[|ts| - 1];
      }
    }
  }

  lemma {:induction false} ReduceActionsMember(g: Grammar, cols: Columns, items: ItemSet, side: Side, j: int, a: Action)
    requires RulesExist(g, items)
    ensures a in ReduceActions(g, cols, items, side, j) <==> ReduceWrites(g, cols, items, side, j, a)
    decreases |items|
  {
    if items != [] {
      var it := items[|items| - 1];
      var init := items[..|items| - 1];
      assert items == init + [it];
      assert RulesExist(g, init);
      ReduceActionsMember(g, cols, init, side, j, a);
      TermHitsMember(cols, g.terminals, side, j, Action(Reduce, it.ruleNumber), a);
    }
  }

  /** A cell holds exactly the actions of the transitions aimed at it and
      the reduces of its state's complete items, nothing else. */
  lemma CellExact(g: Grammar, d: Automaton, i: nat, side: Side, j: int, a: Action)
    requires TableReady(g, d) && i < |d.states|
    ensures a in Expected(g, d, i, side, j) <==>
              ConnectWrites(ColumnsOf(g), d.connects, i, side, j, a) || ReduceWrites(g, ColumnsOf(g), d.states[i], side, j, a)
  {
    ConnectActionsMember(ColumnsOf(g), d.connects, i, side, j, a);
    ReduceActionsMember(g, ColumnsOf(g), d.states[i], side, j, a);
  }

  /** Every transition (o, t, X) puts shift t (X a terminal) or go t (X a
      variable) in row o, in the column named like X. */
  lemma TransitionInCell(g: Grammar, d: Automaton, c: Connection)
    requires TableReady(g, d) && c in d.connects
    requires FindColumn(Headers(ColumnsOf(g), SideOf(c.token)), c.token.value) >= 0
    ensures ActionOf(c) in Expected(g, d, c.origin, SideOf(c.token), FindColumn(Headers(ColumnsOf(g), SideOf(c.token)), c.token.value))
  {
    var j := FindColumn(Headers(ColumnsOf(g), SideOf(c.token)), c.token.value);
    CellExact(g, d, c.origin, SideOf(c.token), j, ActionOf(c));
  }

  /** Each complete item of state `i` puts a reduce by its rule in row `i`
      under every terminal of the grammar. */
  lemma ReduceInCell(g: Grammar, d: Automaton, i: nat, it: Item, x: Token)
    requires TableReady(g, d) && i < |d.states|
    requires it in d.states[i] && it.ruleNumber < |g.rules| && Reducible(g, it)
    requires x in g.terminals && x.kind == Terminal
    ensures 0 <= FindColumn(g.terminals, x.value) < |g.terminals|
    ensures Action(Reduce, it.ruleNumber) in Expected(g, d, i, TerminalSide, FindColumn(g.terminals, x.value))
  {
    var j := FindColumn(g.terminals, x.value);
    assert Hits(ColumnsOf(g), x, TerminalSide, j);
    assert RulesExist(g, d.states[i]);
    CellExact(g, d, i, TerminalSide, j, Action(Reduce, it.ruleNumber));
  }

  /** Terminal columns hold only shifts and reduces; when every terminal of
      the grammar is marked `TERMINAL`, variable columns hold only gos. */
  lemma CellKinds(g: Grammar, d: Automaton, i: nat, j: int, a: Action)
    requires TableReady(g, d) && i < |d.states|
    ensures a in Expected(g, d, i, TerminalSide, j) ==> a.command != Go
    ensures (forall t :: t in g.terminals ==> t.kind == Terminal) && a in Expected(g, d, i, VarSide, j) ==> a.command == Go
  {
    CellExact(g, d, i, TerminalSide, j, a);
    CellExact(g, d, i, VarSide, j, a);
  }

  /** The automaton `init` builds can be given to `table`. */
  lemma GraphOkTableReady(g: Grammar, d: Automaton)
    requires GraphOk(g, d)
    ensures TableReady(g, d)
  {
    forall c | c in d.connects ensures 0 <= c.origin < |d.states| {
      assert Justified(g, d.states, c);
    }
    forall i | 0 <= i < |d.states| ensures RulesExist(g, d.states[i]) {
      assert GoodSet(g, d.states[i]);
    }
  }
}

=== FILE: tables.dfy ===
/** The parse table (`TableLR` in index.ts): one row per automaton state,
    a cell per terminal column and per variable column. A cell is the list
    of the actions recorded in it, in order; the source's cell union (empty,
    one action, or an array of actions) is that list of length 0, 1 or
    more, and a list of two or more is a visible conflict. */
module Tables {
  import opened Tokens

  /** `Command`: shift, reduce or go. */
  datatype Command = Shift | Reduce | Go

  /** `CommandTableType`: a command with its state or rule number. */
  datatype Action = Action(command: Command, index: int)

  type Cell = seq<Action>

  /** `RowLR`: the cells of one state, terminal columns then variable
      columns. */
  datatype Row = Row(terminals: seq<Cell>, vars: seq<Cell>)

  /** `ColLR`: the column headers. */
  datatype Columns = Columns(terminals: seq<Token>, vars: seq<Token>)

  datatype Table = Table(cols: Columns, rows: seq<Row>)

  /** The two halves of a row. `add_cmd` picks the variable half for a
      `NON_TERMINAL` token and the terminal half otherwise. */
  datatype Side = TerminalSide | VarSide

  function SideOf(x: Token): (side: Side)
    ensures side == VarSide <==> x.kind == NonTerminal
  {
    if x.kind == NonTerminal then VarSide else TerminalSide
  }

  function Headers(cols: Columns, side: Side): seq<Token> {
    if side == VarSide then cols.vars else cols.terminals
  }

  /** Every row has one cell per column header. */
  ghost predicate Shaped(t: Table) {
    forall i :: 0 <= i < |t.rows| ==>
      |t.rows[i].terminals| == |t.cols.terminals| && |t.rows[i].vars| == |t.cols.vars|
  }

  /** The cell of row `i`, column `j` on `side`. */
  function CellOf(t: Table, i: nat, side: Side, j: nat): Cell
    requires Shaped(t) && i < |t.rows| && j < |Headers(t.cols, side)|
  {
    if side == VarSide then t.rows[i].vars[j] else t.rows[i].terminals[j]
  }

  /** An empty row for the given headers. */
  function EmptyRow(cols: Columns): (r: Row)
    ensures |r.terminals| == |cols.terminals| && |r.vars| == |cols.vars|
    ensures forall j :: 0 <= j < |r.terminals| ==> r.terminals[j] == []
    ensures forall j :: 0 <= j < |r.vars| ==> r.vars[j] == []
  {
    Row(seq(|cols.terminals|, _ => []), seq(|cols.vars|, _ => []))
  }

  /** `new TableLR(size, cols)`: `size` rows of empty cells. */
  function NewTable(size: nat, cols: Columns): (t: Table)
    ensures Shaped(t) && t.cols == cols && |t.rows| == size
    ensures forall i, side, j :: 0 <= i < size && 0 <= j < |Headers(cols, side)| ==> CellOf(t, i, side, j) == []
  {
    Table(cols, seq(size, _ => EmptyRow(cols)))
  }

  /** `cols.findIndex(v => v.value === value)`: the first header with that
      name (the kind is not compared), or -1. */
  function FindColumn(headers: seq<Token>, value: string): (r: int)
    ensures -1 <= r < |headers|
    ensures r == -1 <==> forall k :: 0 <= k < |headers| ==> headers[k].value != value
    ensures r >= 0 ==> headers[r].value == value && forall k :: 0 <= k < r ==> headers[k].value != value
  {
    if headers == [] then -1
    else if headers[0].value == value then 0
    else
      var r := FindColumn(headers[1..], value);
      if r == -1 then -1 else r + 1
  }

  /** Column `j` of `side` is the one `add_cmd` picks for `x`. */
  predicate Hits(cols: Columns, x: Token, side: Side, j: int) {
    side == SideOf(x) && j == FindColumn(Headers(cols, side), x.value)
  }

  /** Does `add_cmd(state, x, _)` write to cell (`i`, `side`, `j`)? */
  predicate Targets(cols: Columns, state: int, x: Token, i: int, side: Side, j: int) {
    i == state && Hits(cols, x, side, j)
  }

  /** `add_cmd(state, x, a)`: appends `a` to the cell of row `state` in the
      first column of `x`'s side named like `x`; nothing is overwritten and
      no other cell changes. For a name missing from the headers the source
      writes to the array property `-1`, which is not a cell: the grid is
      left as it is. */
  function AddCmd(t: Table, state: nat, x: Token, a: Action): (r: Table)
    requires Shaped(t) && state < |t.rows|
    ensures Shaped(r) && r.cols == t.cols && |r.rows| == |t.rows|
    ensures forall i, side, j :: 0 <= i < |t.rows| && 0 <= j < |Headers(t.cols, side)| ==>
              CellOf(r, i, side, j) == CellOf(t, i, side, j) + (if Targets(t.cols, state, x, i, side, j) then [a] else [])
  {
    var side := SideOf(x);
    var j := FindColumn(Headers(t.cols, side), x.value);
    if j < 0 then t
    else
      var row := t.rows[state];
      var row' := if side == VarSide then row.(vars := row.vars[j := row.vars[j] + [a]])
                  else row.(terminals := row.terminals[j := row.terminals[j] + [a]]);
      t.(rows := t.rows[state := row'])
  }
}

=== FILE: tokens.dfy ===
/** Grammar symbols (`Token` in index.ts). */
module Tokens {

  /** `TERMINAL` (0) and `NON_TERMINAL` (1). */
  datatype Kind = Terminal | NonTerminal

  /** A symbol: its kind and its name. Two tokens are equal as values when
      both kind and name agree; several operations of the generator compare
      names only, and say so where they do. */
  datatype Token = Token(kind: Kind, value: string)
}
